=== FILE: README.md ===
# Roster search engine — a Dafny model

This project models the client-side query engine of a baseball roster
application together with the small pieces of page logic around it:

- the search state and its reducer: text search with partial, exact or
  regular-expression matching over chosen fields, category filters, range
  filters, tri-state flags, sort options and pagination;
- the query pipeline: filter the full record list, feed the filtered count
  back into the state, sort, cut out the current page, and derive the
  listing statistics;
- the filter-count helpers and the defaults;
- the sort-and-pagination bar: the rule for sort-button clicks, the sort
  arrows, the window of page buttons with its ellipses, and prev/next;
- the advanced-search panel: list toggles, checkbox handlers and section
  badges;
- the plain roster page: name-sorted loading, its quick filter, and the
  list of distinct positions;
- the add-player form: submit checks and the record built for the insert.

Everything is pure functions over immutable datatypes.
JavaScript primitives that the engine borrows are parameters of the model,
bundled in `Externals.Primitives`:

- the regular-expression engine;
- `localeCompare`;
- `Date` parsing;
- the `parseFloat` extraction of heights and weights.

Ordering by name or by position is stated under the assumption that
`localeCompare` is a consistent comparator (`Externals.ConsistentCollation`);
ordering by a numeric key holds for any `localeCompare`.

Modules, in dependency order:

- `Wrappers`: option and result types.
- `Text`: lower-casing, substring search, `trim`, code-point order.
- `Seqs`: subsequences, filtering, and a stable insertion sort.
- `Player`: the record shape.
- `SearchTypes`: filters, sort, pagination, defaults and counting.
- `SearchReducer`: the action set and the reducer.
- `Externals`: the borrowed primitives.
- `FilterEngine`: the filter predicate.
- `Sorting`: the comparator and the sort.
- `SearchPipeline`: pagination, the pipeline and statistics.
- `SortAndPagination`: the sort-and-pagination bar.
- `AdvancedSearch`: the advanced-search panel.
- `PlayersPage`: the plain roster page.
- `AddPlayer`: the add-player form.

## Model

| member | source | states |
|---|---|---|
| Text.ToLower | src/hooks/useSearch.ts:145 | lower-casing keeps the length and maps each character on its own |
| Text.ToLowerIdempotent | src/hooks/useSearch.ts:151 | lower-casing an already lower-cased string changes nothing |
| Text.Contains | src/hooks/useSearch.ts:155 | `includes` holds exactly when the needle occurs at some position of the value |
| Text.ContainsEmpty | src/app/players/page.tsx:29 | the empty search term is contained in every string |
| Text.ContainsSelf | src/hooks/useSearch.ts:155-158 | every string contains itself, so an exact hit is also a partial hit |
| Text.LeadingSpace | src/hooks/useSearch.ts:231 | the characters `trim` removes at the front are all whitespace |
| Text.TrailingSpace | src/hooks/useSearch.ts:231 | the characters `trim` removes at the back are all whitespace |
| Text.Trim | src/app/players/add/page.tsx:42 | `trim()` never lengthens a string, and a non-empty result neither starts nor ends with whitespace |
| Text.TrimEmptyIffBlank | src/hooks/useSearch.ts:231 | `trim()` gives "" exactly when every character is whitespace |
| Text.CodeLessIrreflexive | src/app/players/page.tsx:46 | the default sort order never puts a string strictly before itself |
| Text.CodeLessTransitive | src/app/players/page.tsx:46 | the default sort order is transitive |
| Text.CodeLessTotal | src/app/players/page.tsx:46 | any two different strings are ordered one way or the other |
| Seqs.SubsequenceReflexive | src/hooks/useSearch.ts:142 | a list is an order-preserving subsequence of itself |
| Seqs.Filter | src/hooks/useSearch.ts:142 | `filter` returns an order-preserving subsequence of kept elements, each kept element with its full multiplicity |
| Seqs.FilterKeepAll | src/hooks/useSearch.ts:142 | a filter that keeps every element returns its input |
| Seqs.FilterCongruence | src/hooks/useSearch.ts:142 | filters that agree on every element give the same result |
| Seqs.FilterAppend | src/components/AdvancedSearch.tsx:49-50 | filtering a list with one element appended filters the list, then decides on that element alone |
| Seqs.FilterMembership | src/hooks/useSearch.ts:142 | an element survives exactly when it is in the input and kept |
| Seqs.Insert | src/hooks/useSearch.ts:247 | insertion adds exactly one element: length +1, multiset + {x} |
| Seqs.InsertSorted | src/hooks/useSearch.ts:247 | inserting into an ordered list under a total preorder keeps it ordered |
| Seqs.SortBy | src/hooks/useSearch.ts:247 | the sort is a permutation of its input |
| Seqs.SortBySorted | src/hooks/useSearch.ts:247 | under a total preorder the sort's output is ordered |
| SearchTypes.CalculateTotalPages | src/types/search.ts:104-106 | the ceiling of count/limit: the least number of pages of `limit` that hold `count` records; 0 for 0 |
| SearchTypes.IsFilterActive | src/types/search.ts:108-122 | a filter is active exactly when the active-filter count is positive |
| SearchTypes.GetActiveFilterCount | src/types/search.ts:124-135 | the count is at most 8, and 0 exactly when every field except mode and fields has its default |
| SearchTypes.ModeAndFieldsNotCounted | src/types/search.ts:108-135 | changing search mode or searched fields changes neither the count nor activity |
| SearchTypes.RangeCountsOnce | src/types/search.ts:129-131 | each range adds exactly 1 when set, whether one or both bounds are given |
| SearchTypes.DefaultsAreInactive | src/types/search.ts:71-101 | default filters are inactive; default pagination is page 1 of 20, with page and record counts that agree |
| SearchReducer.WriteFilter | src/hooks/useSearch.ts:19-87 | a filter action writes its payload into its own field and no other; checkbox flags are stored as defined values |
| SearchReducer.Reduce | src/hooks/useSearch.ts:17-138 | per action: filter actions and sort change their field and reset the page; the page is set unclamped; limit and count changes recompute pages as the ceiling; the toggle flips only the mode; clear restores defaults and keeps the mode; no action breaks the page/count agreement |
| SearchReducer.ToggleTwice | src/hooks/useSearch.ts:123-127 | toggling advanced mode twice restores the state |
| SearchReducer.SettingIsIdempotent | src/hooks/useSearch.ts:17-138 | every action other than the toggle has no further effect when repeated |
| SearchReducer.SameTotalCountIsNoOp | src/hooks/useSearch.ts:113-121 | re-reporting the stored record count leaves a consistent state unchanged |
| SearchReducer.ClearedStateIsInactive | src/hooks/useSearch.ts:129-133 | after clearing, no filter is active and the page count agrees with the record count |
| FilterEngine.FieldValue | src/hooks/useSearch.ts:149 | the name field is always present |
| FilterEngine.AnyFieldHits | src/hooks/useSearch.ts:148-170 | the loop over fields finds a match exactly when some listed field is non-empty and matches |
| FilterEngine.ModeMatches | src/hooks/useSearch.ts:153-169 | partial mode is substring search, exact mode is equality, regex mode tests the pattern and falls back to substring search when the pattern does not compile (definition) |
| FilterEngine.FieldHit | src/hooks/useSearch.ts:149-170 | one searched field counts as a hit when its value is present and non-empty and its lower-cased form matches under the search mode; a missing or empty field never hits (definition) |
| FilterEngine.TextOk | src/hooks/useSearch.ts:143-174 | an empty search string passes every record; otherwise some searched field must hit, compared against the lower-cased search string (definition) |
| FilterEngine.CategoryOk | src/hooks/useSearch.ts:177-188 | an empty list lets every record through; otherwise the value must be present, non-empty and listed (definition) |
| FilterEngine.WithinRange | src/hooks/useSearch.ts:195-200 | a number passes when it is not below a set minimum and not above a set maximum; an unset bound is no test (definition) |
| FilterEngine.DraftYearOk | src/hooks/useSearch.ts:190-201 | a set range excludes a missing year and a year outside either set bound (definition) |
| FilterEngine.MeasureOk | src/hooks/useSearch.ts:203-227 | a set range excludes a missing or empty measurement and a number outside a set bound; a measurement that yields no number is kept (definition) |
| FilterEngine.FlagOk | src/hooks/useSearch.ts:229-240 | an undefined flag passes every record; a defined one must equal the record's property (definition) |
| FilterEngine.HasNotes | src/hooks/useSearch.ts:231 | a record has notes when its notes are present and not blank after trimming (definition) |
| FilterEngine.HasPhysicalData | src/hooks/useSearch.ts:236-237 | a record has physical data when its height or its weight is present and not blank after trimming (definition) |
| FilterEngine.Matches | src/hooks/useSearch.ts:142-243 | a record matches when the text, both category, the three range and both flag tests all hold (definition) |
| FilterEngine.ApplyFilters | src/hooks/useSearch.ts:141-243 | the survivors are an order-preserving subsequence; each survivor matches; each matching record keeps its multiplicity |
| FilterEngine.SurvivorIffMatches | src/hooks/useSearch.ts:141-243 | a record survives exactly when it is in the input and satisfies every active constraint |
| FilterEngine.SurvivorSatisfiesConstraints | src/hooks/useSearch.ts:143-240 | what each active constraint guarantees about a survivor: a field hit, a listed non-empty category, a present in-range year, a non-empty measurement, flags equal to the notes and physical-data tests |
| FilterEngine.UnconstrainedKeepsAll | src/hooks/useSearch.ts:141-243 | with no active filter category the output equals the input |
| FilterEngine.NoSearchFieldsExcludesAll | src/hooks/useSearch.ts:144-173 | a non-empty search over no fields excludes every record |
| FilterEngine.InvalidRegexFallsBackToPartial | src/hooks/useSearch.ts:160-167 | in regex mode an invalid pattern gives exactly the partial-mode result |
| FilterEngine.ExactWithinPartial | src/hooks/useSearch.ts:153-159 | every exact-mode survivor also survives in partial mode |
| FilterEngine.UnparsedMeasurePasses | src/hooks/useSearch.ts:203-226 | a non-empty height or weight that yields no number passes any range |
| Sorting.Timestamp | src/hooks/useSearch.ts:262-263 | a missing date sorts as the epoch |
| Sorting.YearKey | src/hooks/useSearch.ts:255-257 | the draft-year sort key is the year, or 0 for a missing year (definition) |
| Sorting.PositionKey | src/hooks/useSearch.ts:273-275 | the position sort key is the position, or `""` for a missing position (definition) |
| Sorting.Compare | src/hooks/useSearch.ts:248-283 | per field: `localeCompare` of names or of positions with null as "", the difference of years with null as 0, or the difference of timestamps (definition) |
| Sorting.Directed | src/hooks/useSearch.ts:283 | descending negates the sign of the comparison |
| Sorting.CompareAntisymmetric | src/hooks/useSearch.ts:246-285 | swapping two records flips the sign of the comparison on every field |
| Sorting.CompareTransitive | src/hooks/useSearch.ts:246-285 | "not after" is transitive on every field |
| Sorting.OrderIsTotalPreorder | src/hooks/useSearch.ts:246-285 | every sort option, in either direction, gives a total preorder |
| Sorting.ApplySorting | src/hooks/useSearch.ts:246-285 | the sort is a permutation of the survivors, ordered by the selected key and direction: always for a numeric key, and for a text key when `localeCompare` is consistent |
| Sorting.DraftYearOrder | src/hooks/useSearch.ts:255-259 | for any `localeCompare`, draft years rise (ascending) or fall (descending), a missing year counting as 0 |
| Sorting.CreatedAtOrder | src/hooks/useSearch.ts:261-265 | for any `localeCompare`, creation timestamps rise or fall, a missing date counting as the epoch |
| Sorting.DescendingReversesAscending | src/hooks/useSearch.ts:283 | a descending sort is ordered by the reversed ascending comparator: every later record may go before every earlier one in the ascending sense |
| SearchPipeline.SliceIndex | src/hooks/useSearch.ts:290 | a slice index lands within the list, and a non-negative one is clamped to its length |
| SearchPipeline.JsSlice | src/hooks/useSearch.ts:290 | for `0 <= start <= end`, `slice` is the sub-list between the two bounds clamped to the length; for any bounds its elements come from the list |
| SearchPipeline.PageArithmetic | src/hooks/useSearch.ts:288-289 | page `p` starts at a non-negative index and ends at `p * limit` |
| SearchPipeline.SliceWindow | src/hooks/useSearch.ts:287-291 | a window of `size` records from `start` holds at most `size` records, in place |
| SearchPipeline.ApplyPagination | src/hooks/useSearch.ts:287-291 | for page ≥ 1: at most `limit` records, exactly records `(page-1)*limit` up to `min(page*limit, n)` |
| SearchPipeline.PageKeepsOrder | src/hooks/useSearch.ts:287-291 | every page of an ordered list, for any page number, is ordered, since `slice` returns a contiguous run |
| SearchPipeline.IsPageOf | src/hooks/useSearch.ts:287-291 | a page is the run of at most `limit` records starting at record `(page-1)*limit` (definition) |
| SearchPipeline.PageElement | src/hooks/useSearch.ts:287-291 | record `j` of a page is record `(page-1)*limit + j` of the list |
| SearchPipeline.PrefixThenPage | src/hooks/useSearch.ts:287-291 | the records before a page, then the page, are the records up to its end |
| SearchPipeline.PagesUpToIsPrefix | src/hooks/useSearch.ts:287-291 | the first `k` pages read in order are the first `k * limit` records |
| SearchPipeline.AllPagesReassemble | src/hooks/useSearch.ts:287-291 | reading all pages in order gives back the sorted list |
| SearchPipeline.ProcessPlayers | src/hooks/useSearch.ts:298-322 | the filtered list is an order-preserving subsequence holding exactly the matching records with their multiplicities, and the total count is its length; the displayed records match, are ordered by the chosen sort (numeric keys always, text keys under a consistent `localeCompare`), and for page ≥ 1 are exactly that page of the sorted filtered list |
| SearchPipeline.SortedPage | src/hooks/useSearch.ts:307-315 | the page cut from the sorted records comes from them, is ordered by the chosen sort, and for page ≥ 1 is exactly that page of the sorted list |
| SearchPipeline.CountFeedback | src/hooks/useSearch.ts:303-305 | the count update is dispatched exactly when the filtered count differs from the stored one |
| SearchPipeline.Settle | src/hooks/useSearch.ts:303-305 | applying the feedback records the filtered count, keeps filters, sort, page and size, and keeps page and record counts in agreement |
| SearchPipeline.SettleIsFixpoint | src/hooks/useSearch.ts:298-322 | after one feedback round the pipeline dispatches nothing more and shows the same output |
| SearchPipeline.SettledPageCount | src/hooks/useSearch.ts:303-305 | after feedback the page count is the ceiling of filtered count over limit |
| SearchPipeline.ComputeStats | src/hooks/useSearch.ts:405-415 | the activity flag and count are those of the current filters; the two totals are the given lengths; page end is at most the filtered count and the page's last index; page start is the page's first record number |
| SearchPipeline.PageMatchesStats | src/hooks/useSearch.ts:405-415 | the displayed page has exactly end - start + 1 records, from record `start` to record `end` |
| SortAndPagination.NextSort | src/components/SortAndPagination.tsx:26-30 | a click sorts by the clicked field, descending exactly when it was the current field in ascending order |
| SortAndPagination.SortClickCycle | src/components/SortAndPagination.tsx:26-30 | two clicks on the current ascending field return to ascending; a click on another field starts ascending |
| SortAndPagination.IconFor | src/components/SortAndPagination.tsx:131-136 | the neutral arrow shows exactly on fields other than the current one |
| SortAndPagination.IconPredictsClick | src/components/SortAndPagination.tsx:131-136 | the next click sorts descending exactly under an up arrow, and the arrow then shows the new direction |
| SortAndPagination.PageWindow | src/components/SortAndPagination.tsx:50-57 | the window lies in 1..total, holds at most 7 pages, exactly 7 when total ≥ 7, all pages when total < 7, and contains an in-range current page |
| SortAndPagination.WindowButtons | src/components/SortAndPagination.tsx:79-93 | one button per window page, in order, highlighted exactly on the current page |
| SortAndPagination.Lead | src/components/SortAndPagination.tsx:59-77 | at most two buttons precede the window: page 1 and an ellipsis |
| SortAndPagination.Trail | src/components/SortAndPagination.tsx:96-114 | at most two buttons follow the window: an ellipsis and the last page |
| SortAndPagination.PageTokens | src/components/SortAndPagination.tsx:59-114 | the leading buttons, the window and the trailing buttons, in that order (definition; its properties are the lemmas below) |
| SortAndPagination.EdgeButtons | src/components/SortAndPagination.tsx:59-114 | page 1 leads when the window starts later; a leading ellipsis exactly when it starts after 2; symmetrically for the last page and a trailing ellipsis |
| SortAndPagination.PageNumbersIncrease | src/components/SortAndPagination.tsx:59-114 | the page numbers shown rise strictly and lie within 1..total |
| SortAndPagination.AssembledNumbersIncrease | src/components/SortAndPagination.tsx:59-114 | the same for any window within the bounds `PageWindow` guarantees |
| SortAndPagination.PageGapsMarked | src/components/SortAndPagination.tsx:59-114 | neighbouring numbers are consecutive; each ellipsis sits between numbers at least 2 apart |
| SortAndPagination.AssembledGapsMarked | src/components/SortAndPagination.tsx:59-114 | the same for any window within the bounds `PageWindow` guarantees |
| SortAndPagination.AssembledNeighbours | src/components/SortAndPagination.tsx:59-114 | every token is a number or an ellipsis, and adjacent numbers are consecutive |
| SortAndPagination.AssembledEllipses | src/components/SortAndPagination.tsx:59-114 | every ellipsis has numbers on both sides with at least one page hidden between |
| SortAndPagination.PageTokensEnds | src/components/SortAndPagination.tsx:59-114 | page 1 comes first and the last page last; an in-range current page is shown highlighted; at most 11 tokens |
| SortAndPagination.AssembledEnds | src/components/SortAndPagination.tsx:59-114 | the same for any window within the bounds `PageWindow` guarantees |
| SortAndPagination.PaginationButtons | src/components/SortAndPagination.tsx:37-127 | "prev" first, disabled exactly on page ≤ 1; "next" last, disabled exactly on page ≥ total; the page tokens between |
| SortAndPagination.PaginationBar | src/components/SortAndPagination.tsx:211 | the bar is rendered exactly when there is more than one page |
| SortAndPagination.Click | src/components/SortAndPagination.tsx:37-127 | an enabled "prev" asks for the previous page, an enabled "next" for the next one, a page button for its own page; ellipses and disabled buttons dispatch nothing |
| SortAndPagination.ClicksStayInRange | src/components/SortAndPagination.tsx:37-127 | from an in-range page, every click asks for a page in 1..total |
| AdvancedSearch.Toggle | src/components/AdvancedSearch.tsx:47-52 | an absent item is appended; a present item is removed everywhere, the rest an order-preserving subsequence; membership flips for that item only |
| AdvancedSearch.ToggleOffKeepsOthers | src/components/AdvancedSearch.tsx:48-50 | deselecting keeps every other item with its multiplicity |
| AdvancedSearch.ToggleOnOff | src/components/AdvancedSearch.tsx:47-52 | toggling an absent item twice restores the list exactly |
| AdvancedSearch.ToggleOffOn | src/components/AdvancedSearch.tsx:47-52 | toggling a present item twice keeps the same members, the item moved to the end |
| AdvancedSearch.HandlePositionToggle | src/components/AdvancedSearch.tsx:47-52 | a click on a position asks for the selection with that position flipped and every other position kept |
| AdvancedSearch.HandleAffiliationTypeToggle | src/components/AdvancedSearch.tsx:54-59 | the same for an affiliation type |
| AdvancedSearch.HandleSearchFieldToggle | src/components/AdvancedSearch.tsx:61-66 | the same for a searched field |
| AdvancedSearch.PositionClickedTwice | src/components/AdvancedSearch.tsx:47-52 | two clicks on an unselected position restore the filters; the page stays at 1 |
| AdvancedSearch.AffiliationTypeClickedTwice | src/components/AdvancedSearch.tsx:54-59 | two clicks on an unselected affiliation type restore the filters |
| AdvancedSearch.LastFieldOffFindsNothing | src/components/AdvancedSearch.tsx:61-66 | deselecting the only searched field while text is entered leaves no results |
| AdvancedSearch.Ticked | src/components/AdvancedSearch.tsx:444 | a checkbox shows ticked exactly for a `true` flag |
| AdvancedSearch.HasNotesCheckbox | src/components/AdvancedSearch.tsx:445 | the click stores a defined flag, and the box then shows ticked exactly when the click ticked it |
| AdvancedSearch.HasPhysicalDataCheckbox | src/components/AdvancedSearch.tsx:455 | the same for the physical-data box |
| AdvancedSearch.UntickingNotesInverts | src/components/AdvancedSearch.tsx:443-446 | unticking stores `false`: the filter stays active and keeps only records without notes |
| AdvancedSearch.UntickingPhysicalDataInverts | src/components/AdvancedSearch.tsx:453-456 | unticking stores `false`: the filter stays active and keeps only records with neither height nor weight |
| AdvancedSearch.SectionBadges | src/components/AdvancedSearch.tsx:146-436 | the section counts, one field of the `Badges` record per header: the text badge is 1 exactly for a non-empty search; each range badge is 1 exactly when the range has a bound set; list badges are the list lengths; the "other" badge counts the defined flags |
| AdvancedSearch.ShownBadge | src/components/AdvancedSearch.tsx:86 | a badge is drawn exactly for a positive count, showing that count |
| AdvancedSearch.BadgesAddUpToCount | src/types/search.ts:124-135 | the header count is the sum of the section badge values, a list counting once; so it is positive exactly when some section badge value is (whether that section is on screen is not modelled) |
| AdvancedSearch.ClearEnabled | src/components/AdvancedSearch.tsx:118-123 | the clear button is enabled exactly when a filter is active |
| AdvancedSearch.ClearDisablesItself | src/components/AdvancedSearch.tsx:118-123 | clearing from an enabled clear button disables it |
| PlayersPage.ListingFilter | src/app/players/page.tsx:26-39 | the listing is an order-preserving subsequence holding exactly the records whose name or affiliation contains the term and whose position matches, each matching record as many times as it was loaded |
| PlayersPage.ListingMatch | src/app/players/page.tsx:27-37 | the lower-cased name or present affiliation name contains the lower-cased term, and no position is chosen or the position equals it (definition) |
| PlayersPage.EmptyListingFilterKeepsAll | src/app/players/page.tsx:27-38 | with an empty term and no position chosen the listing is the input |
| PlayersPage.PositionNarrows | src/app/players/page.tsx:33-35 | choosing a position only narrows the listing, to records of that position |
| PlayersPage.InsertUnique | src/app/players/page.tsx:46 | adding to a strictly ordered list keeps it strictly ordered and adds just that element |
| PlayersPage.PresentPositions | src/app/players/page.tsx:43-45 | the collected values are exactly the non-null positions |
| PlayersPage.SortedDistinct | src/app/players/page.tsx:46 | the result is strictly ordered with the same elements as the input |
| PlayersPage.UniquePositions | src/app/players/page.tsx:42-47 | the options are strictly ordered (no duplicates) and are exactly the non-null positions |
| PlayersPage.StrictlySortedDistinct | src/app/players/page.tsx:46 | a strictly ordered list repeats no element |
| PlayersPage.StrictlySortedUnique | src/app/players/page.tsx:46 | two strictly ordered lists with the same elements are equal |
| PlayersPage.UniquePositionsCanonical | src/app/players/page.tsx:42-47 | any strictly ordered list of the non-null positions is the options list |
| PlayersPage.LoadPlayers | src/app/players/page.tsx:61-72 | a failed query gives its error; null data gives []; otherwise a permutation of the rows ordered by name |
| AddPlayer.NullIfEmpty | src/app/players/add/page.tsx:56-62 | "" becomes null and any other text is kept |
| AddPlayer.NullIfEmptyRoundTrip | src/app/players/add/page.tsx:56-62 | text to nullable and back is the identity, and so is nullable non-empty text to text and back |
| AddPlayer.Submit | src/app/players/add/page.tsx:34-63 | a missing user id fails first, then a blank name; otherwise the insert carries the user id, the untrimmed name and the draft year |
| AddPlayer.SubmitRoundTrip | src/app/players/add/page.tsx:52-63 | an accepted form is recovered from its insert, and no optional text is stored as "" |
| AddPlayer.EmptyFormRefused | src/app/players/add/page.tsx:20-45 | the initial form is refused for its empty name |
| AddPlayer.NameNotTrimmed | src/app/players/add/page.tsx:42-53 | a name with surrounding spaces is sent with them |

## Left out

- Network, authentication and routing: the database client, the session hook, the login and dashboard pages, and the `useEffect` fetch wiring are not part of this model. `PlayersPage.LoadPlayers` takes the query outcome as a parameter. The insert itself and the redirect after it are not modelled.
- Markup and React machinery: JSX, `useReducer`/`useMemo`/`useCallback`, and the `expandedSections` accordion state. The in-pipeline dispatch is modelled as `SearchPipeline.CountFeedback` and `SearchPipeline.Settle`.
- The regular-expression engine, `localeCompare` and `Date` parsing are uninterpreted parameters (`Externals.Primitives`), so no specific collation or date format is modelled.
- The range number inputs of the advanced panel (`parseInt` of an input's text into `min`/`max`) are not modelled; the reducer takes the resulting range directly.
- Display-only text (labels, messages, the error-message prefixes) is not modelled; `PlayersPage.LoadPlayers` returns the bare error message.
- `SearchTypes.PageSize` requires a positive page size. The selector offers only 10, 20, 50 and 100, and division by zero is not modelled.
- FilterEngine.MeasureOk: heights and weights are compared as integers. `parseFloat`'s fractional values are not modelled; a result of NaN is `None`.
- Sorting.Timestamp: an unparseable date (NaN timestamp, which makes the JavaScript comparator return NaN) is not modelled; `parseDate` returns an integer.
- Sorting.ApplySorting: ordering by name or position is promised only when `localeCompare` is a consistent comparator. The model sorts stably, like the runtime, but stability is not stated as a property.
- Text.ToLower: only ASCII letters are case-mapped; the full Unicode case mapping of `toLowerCase` is not modelled.
- PlayersPage.UniquePositions: the default `sort()` compares UTF-16 code units; the model compares code points. The two orders agree outside the supplementary planes.
- SearchPipeline.ApplyPagination: for page ≤ 0 the model computes JavaScript's negative-index `slice`; it states only that such a page keeps the order (`SearchPipeline.PageKeepsOrder`) and draws its records from the list, not which records they are.
- Sorting.DescendingReversesAscending: states only the reversed-comparator order. The runtime sort is stable, so tied records keep their input order in both directions; the model sorts stably too, but that placement of ties is not stated.
- AdvancedSearch.BadgesAddUpToCount: the draft-year, height, weight and "other" sections are drawn only in advanced mode, and leaving advanced mode keeps their filters, so the header count can be shown while no section badge is on screen; which sections are visible is not modelled.
- SearchPipeline.ComputeStats: for 0 records the code shows start 1, end 0 and 0 pages (`SearchTypes.CalculateTotalPages`); the model does the same and promises no clamping and no minimum of one page.
- FilterEngine.UnparsedMeasurePasses: a non-empty height or weight that yields no number is kept by an active range, because NaN fails both comparisons; only a missing or empty value is excluded. The model follows the code.
- Generated database type helpers and the other tables are not modelled; only the player row shape (`Player.Player`) and the insert shape (`AddPlayer.PlayerInsert`) are.

=== FILE: add_player.dfy ===
/** The add-player form: the checks made on submit and the record handed to
    the database insert, with empty optional text turned into `null`. */
module AddPlayer {
  import opened Wrappers
  import opened Text

  /** The form's fields: every text input holds a string (initially
      empty); the draft year is a number or `null`. */
  datatype Form = Form(
    name: string,
    position: string,
    positionDetail: string,
    affiliationType: string,
    affiliationName: string,
    draftYear: Option<int>,
    height: string,
    weight: string,
    notes: string)

  const EmptyForm: Form := Form("", "", "", "", "", None, "", "", "")

  /** The record sent to the insert; the database assigns the id and the
      timestamps. */
  datatype PlayerInsert = PlayerInsert(
    userId: string,
    name: string,
    position: Option<string>,
    positionDetail: Option<string>,
    affiliationType: Option<string>,
    affiliationName: Option<string>,
    draftYear: Option<int>,
    height: Option<string>,
    weight: Option<string>,
    notes: Option<string>)

  /** Why a submit is refused before anything is sent. */
  datatype SubmitError = MissingUserId | BlankName

  /** `value || null` on a string. */
  function NullIfEmpty(s: string): (o: Option<string>)
    ensures o.None? <==> s == ""
    ensures o.Some? ==> o.value == s
  {
    if s == "" then None else Some(s)
  }

  /** `value || ''`: how a nullable text is shown in a text input. */
  function EmptyIfNull(o: Option<string>): string {
    o.GetOr("")
  }

  /** Turning empty text into `null` loses nothing: reading the value back
      as form text gives the original string, and the stored value is
      `null` or non-empty. */
  lemma NullIfEmptyRoundTrip(s: string, o: Option<string>)
    requires o.None? || o.value != ""
    ensures EmptyIfNull(NullIfEmpty(s)) == s
    ensures NullIfEmpty(EmptyIfNull(o)) == o
  {
  }

  /** The submit handler: refuse without a signed-in user id, then refuse a
      name that is empty after trimming; otherwise build the insert. */
  function Submit(userId: Option<string>, form: Form): (r: Result<PlayerInsert, SubmitError>)
    ensures (userId.None? || userId.value == "") <==> r == Failure(MissingUserId)
    ensures r == Failure(BlankName) <==> userId.Some? && userId.value != "" && IsBlank(form.name)
    ensures r.Success? <==> userId.Some? && userId.value != "" && !IsBlank(form.name)
    ensures r.Success? ==> r.value.userId == userId.value && r.value.name == form.name
    ensures r.Success? ==> r.value.draftYear == form.draftYear
  {
    TrimEmptyIffBlank(form.name);
    if userId.None? || userId.value == "" then
      Failure(MissingUserId)
    else if Trim(form.name) == "" then
      Failure(BlankName)
    else
      Success(PlayerInsert(
        userId.value,
        form.name,
        NullIfEmpty(form.position),
        NullIfEmpty(form.positionDetail),
        NullIfEmpty(form.affiliationType),
        NullIfEmpty(form.affiliationName),
        form.draftYear,
        NullIfEmpty(form.height),
        NullIfEmpty(form.weight),
        NullIfEmpty(form.notes)))
  }

  /** The form a stored insert would be shown in again. */
  function FormOf(ins: PlayerInsert): Form {
    Form(
      ins.name,
      EmptyIfNull(ins.position),
      EmptyIfNull(ins.positionDetail),
      EmptyIfNull(ins.affiliationType),
      EmptyIfNull(ins.affiliationName),
      ins.draftYear,
      EmptyIfNull(ins.height),
      EmptyIfNull(ins.weight),
      EmptyIfNull(ins.notes))
  }

  /** An accepted form is recovered exactly from the insert it produced,
      and no optional text is ever stored as an empty string, so a blank
      input never looks present to the filters. */
  lemma SubmitRoundTrip(userId: string, form: Form)
    requires userId != "" && !IsBlank(form.name)
    ensures var r := Submit(Some(userId), form);
      && r.Success?
      && FormOf(r.value) == form
      && (r.value.position.Some? ==> r.value.position.value != "")
      && (r.value.positionDetail.Some? ==> r.value.positionDetail.value != "")
      && (r.value.affiliationType.Some? ==> r.value.affiliationType.value != "")
      && (r.value.affiliationName.Some? ==> r.value.affiliationName.value != "")
      && (r.value.notes.Some? ==> r.value.notes.value != "")
      && (r.value.height.Some? ==> r.value.height.value != "")
      && (r.value.weight.Some? ==> r.value.weight.value != "")
  {
    var r := Submit(Some(userId), form);
    NullIfEmptyRoundTrip(form.position, None);
    NullIfEmptyRoundTrip(form.positionDetail, None);
    NullIfEmptyRoundTrip(form.affiliationType, None);
    NullIfEmptyRoundTrip(form.affiliationName, None);
    NullIfEmptyRoundTrip(form.height, None);
    NullIfEmptyRoundTrip(form.weight, None);
    NullIfEmptyRoundTrip(form.notes, None);
  }

  /** The untouched form is refused: its name is empty. */
  lemma EmptyFormRefused(userId: string)
    requires userId != ""
    ensures Submit(Some(userId), EmptyForm) == Failure(BlankName)
  {
    assert IsBlank(EmptyForm.name);
  }

  /** The name is sent as typed, surrounding spaces included; only the
      check trims it. */
  lemma NameNotTrimmed(userId: string, form: Form)
    requires userId != "" && !IsBlank(form.name) && Trim(form.name) != form.name
    ensures Submit(Some(userId), form).value.name != Trim(form.name)
  {
    TrimEmptyIffBlank(form.name);
  }
}

=== FILE: advanced_search.dfy ===
/** The advanced-search panel: the toggle handlers for positions,
    affiliation types and searched fields, the checkbox handlers of the
    "other" section, and the count badges on the section headers. */
module AdvancedSearch {
  import opened Wrappers
  import opened Seqs
  import opened Player
  import opened SearchTypes
  import opened SearchReducer
  import opened Externals
  import opened FilterEngine

  /** Selecting or deselecting `x`: an unselected item is appended; a
      selected one is removed, every occurrence of it. */
  function Toggle<T(==,!new)>(xs: seq<T>, x: T): (r: seq<T>)
    ensures x !in xs ==> r == xs + [x]
    ensures x in xs ==> x !in r && IsSubsequence(r, xs)
    ensures forall y :: y in r <==> (y in xs) != (y == x)
  {
    if x in xs then
      var r := Filter(xs, y => y != x);
      forall y ensures y in r <==> y in xs && y != x {
        FilterMembership(xs, y => y != x, y);
      }
      r
    else
      xs + [x]
  }

  /** Deselecting keeps the other items with their multiplicities and
      their order. */
  lemma ToggleOffKeepsOthers<T(!new)>(xs: seq<T>, x: T, y: T)
    requires x in xs && y != x
    ensures multiset(Toggle(xs, x))[y] == multiset(xs)[y]
  {
  }

  /** Selecting an item and deselecting it again restores the list. */
  lemma ToggleOnOff<T(!new)>(xs: seq<T>, x: T)
    requires x !in xs
    ensures Toggle(Toggle(xs, x), x) == xs
  {
    var keep := (y: T) => y != x;
    FilterAppend(xs, x, keep);
    FilterKeepAll(xs, keep);
  }

  /** Deselecting an item and selecting it again keeps the same selection,
      with the item moved to the end and its duplicates gone. */
  lemma ToggleOffOn<T(!new)>(xs: seq<T>, x: T)
    requires x in xs
    ensures Toggle(Toggle(xs, x), x) == Filter(xs, y => y != x) + [x]
    ensures forall y :: y in Toggle(Toggle(xs, x), x) <==> y in xs
  {
  }

  /** A click on a position chip asks for the selection with that position
      flipped and every other one kept. */
  function HandlePositionToggle(f: Filters, position: string): (a: Action)
    ensures a.SetPositions?
    ensures a.positions == Toggle(f.positions, position)
    ensures forall y :: y in a.positions <==> (y in f.positions) != (y == position)
  {
    SetPositions(Toggle(f.positions, position))
  }

  /** The same for an affiliation-type chip. */
  function HandleAffiliationTypeToggle(f: Filters, affiliationType: string): (a: Action)
    ensures a.SetAffiliationTypes?
    ensures a.affiliationTypes == Toggle(f.affiliationTypes, affiliationType)
    ensures forall y :: y in a.affiliationTypes <==> (y in f.affiliationTypes) != (y == affiliationType)
  {
    SetAffiliationTypes(Toggle(f.affiliationTypes, affiliationType))
  }

  /** The same for a searched-field checkbox. */
  function HandleSearchFieldToggle(f: Filters, field: SearchField): (a: Action)
    ensures a.SetSearchFields?
    ensures a.fields == Toggle(f.searchFields, field)
    ensures forall y :: y in a.fields <==> (y in f.searchFields) != (y == field)
  {
    SetSearchFields(Toggle(f.searchFields, field))
  }

  /** Clicking an unselected position twice brings the filters back to
      where they were; the page stays reset to 1. */
  lemma PositionClickedTwice(s: SearchState, position: string)
    requires position !in s.filters.positions
    ensures var t := Reduce(s, HandlePositionToggle(s.filters, position));
      var u := Reduce(t, HandlePositionToggle(t.filters, position));
      && position in t.filters.positions
      && u.filters == s.filters
      && u.pagination == s.pagination.(page := 1)
  {
    var ps := s.filters.positions;
    var a := HandlePositionToggle(s.filters, position);
    assert a == SetPositions(ps + [position]);
    var t := Reduce(s, a);
    assert t == s.(filters := s.filters.(positions := ps + [position]), pagination := s.pagination.(page := 1));
    ToggleOnOff(ps, position);
    var b := HandlePositionToggle(t.filters, position);
    assert b == SetPositions(ps);
    assert Reduce(t, b) == t.(filters := t.filters.(positions := ps), pagination := t.pagination.(page := 1));
  }

  /** Clicking an unselected affiliation type twice brings the filters back
      to where they were. */
  lemma AffiliationTypeClickedTwice(s: SearchState, affiliationType: string)
    requires affiliationType !in s.filters.affiliationTypes
    ensures var t := Reduce(s, HandleAffiliationTypeToggle(s.filters, affiliationType));
      var u := Reduce(t, HandleAffiliationTypeToggle(t.filters, affiliationType));
      u.filters == s.filters
  {
    var ts := s.filters.affiliationTypes;
    var a := HandleAffiliationTypeToggle(s.filters, affiliationType);
    assert a == SetAffiliationTypes(ts + [affiliationType]);
    var t := Reduce(s, a);
    assert t == s.(filters := s.filters.(affiliationTypes := ts + [affiliationType]), pagination := s.pagination.(page := 1));
    ToggleOnOff(ts, affiliationType);
    var b := HandleAffiliationTypeToggle(t.filters, affiliationType);
    assert b == SetAffiliationTypes(ts);
    assert Reduce(t, b) == t.(filters := t.filters.(affiliationTypes := ts), pagination := t.pagination.(page := 1));
  }

  /** Deselecting the last searched field while text is entered makes the
      search find nothing. */
  lemma LastFieldOffFindsNothing(env: Primitives, s: SearchState, field: SearchField, players: seq<Player>)
    requires s.filters.searchFields == [field] && s.filters.textSearch != ""
    ensures var t := Reduce(s, HandleSearchFieldToggle(s.filters, field));
      ApplyFilters(env, players, t.filters) == []
  {
    var t := Reduce(s, HandleSearchFieldToggle(s.filters, field));
    assert field in s.filters.searchFields;
    assert |t.filters.searchFields| == 0;
    NoSearchFieldsExcludesAll(env, players, t.filters);
  }

  /** A checkbox of the "other" section shows ticked only for a `true`
      filter. */
  function Ticked(flag: Option<bool>): (ticked: bool)
    ensures ticked <==> flag == Some(true)
  {
    flag.Some? && flag.value
  }

  /** The checkbox handlers dispatch the box's new state as a defined
      boolean, so after the update the box shows what was clicked. */
  function HasNotesCheckbox(checked: bool): (a: Action)
    ensures a.IsFilterAction()
    ensures forall f :: WriteFilter(f, a).hasNotes.Some? && (Ticked(WriteFilter(f, a).hasNotes) <==> checked)
  {
    SetHasNotes(checked)
  }

  function HasPhysicalDataCheckbox(checked: bool): (a: Action)
    ensures a.IsFilterAction()
    ensures forall f :: WriteFilter(f, a).hasPhysicalData.Some? && (Ticked(WriteFilter(f, a).hasPhysicalData) <==> checked)
  {
    SetHasPhysicalData(checked)
  }

  /** Unticking the notes box does not turn the filter off: it now keeps
      only the records without notes, and the filter still counts as
      active. */
  lemma UntickingNotesInverts(env: Primitives, s: SearchState, players: seq<Player>, p: Player)
    requires Ticked(s.filters.hasNotes)
    ensures var t := Reduce(s, HasNotesCheckbox(!Ticked(s.filters.hasNotes)));
      && t.filters.hasNotes == Some(false)
      && !Ticked(t.filters.hasNotes)
      && IsFilterActive(t.filters)
      && (p in ApplyFilters(env, players, t.filters) ==> !HasNotes(p))
  {
    var t := Reduce(s, HasNotesCheckbox(!Ticked(s.filters.hasNotes)));
    assert t == Reduce(s, SetHasNotes(false));
    assert t.filters.hasNotes == Some(false);
    if p in ApplyFilters(env, players, t.filters) {
      SurvivorIffMatches(env, players, t.filters, p);
    }
  }

  /** Unticking the physical-data box keeps only records with neither a
      height nor a weight. */
  lemma UntickingPhysicalDataInverts(env: Primitives, s: SearchState, players: seq<Player>, p: Player)
    requires Ticked(s.filters.hasPhysicalData)
    ensures var t := Reduce(s, HasPhysicalDataCheckbox(!Ticked(s.filters.hasPhysicalData)));
      && t.filters.hasPhysicalData == Some(false)
      && IsFilterActive(t.filters)
      && (p in ApplyFilters(env, players, t.filters) ==> !HasPhysicalData(p))
  {
    var t := Reduce(s, HasPhysicalDataCheckbox(!Ticked(s.filters.hasPhysicalData)));
    assert t == Reduce(s, SetHasPhysicalData(false));
    assert t.filters.hasPhysicalData == Some(false);
    if p in ApplyFilters(env, players, t.filters) {
      SurvivorIffMatches(env, players, t.filters, p);
    }
  }

  /** The count on each section header. */
  datatype Badges = Badges(
    basic: nat,
    positions: nat,
    affiliationTypes: nat,
    draftYear: nat,
    height: nat,
    weight: nat,
    other: nat)

  function SectionBadges(f: Filters): (b: Badges)
    ensures b.basic <= 1 && b.draftYear <= 1 && b.height <= 1 && b.weight <= 1 && b.other <= 2
    ensures b.basic == 1 <==> f.textSearch != ""
    ensures b.positions == |f.positions| && b.affiliationTypes == |f.affiliationTypes|
    ensures b.draftYear == 1 <==> f.draftYearRange.IsSet()
    ensures b.height == 1 <==> f.heightRange.IsSet()
    ensures b.weight == 1 <==> f.weightRange.IsSet()
    ensures b.other == Indicator(f.hasNotes.Some?) + Indicator(f.hasPhysicalData.Some?)
  {
    Badges(
      Indicator(f.textSearch != ""),
      |f.positions|,
      |f.affiliationTypes|,
      Indicator(f.draftYearRange.min.Some? || f.draftYearRange.max.Some?),
      Indicator(f.heightRange.min.Some? || f.heightRange.max.Some?),
      Indicator(f.weightRange.min.Some? || f.weightRange.max.Some?),
      Indicator(f.hasNotes.Some?) + Indicator(f.hasPhysicalData.Some?))
  }

  /** A badge is drawn only for a positive count. */
  function ShownBadge(count: nat): (shown: Option<nat>)
    ensures shown.Some? <==> count > 0
    ensures shown.Some? ==> shown.value == count
  {
    if count > 0 then Some(count) else None
  }

  /** The header's active-filter count is the section badges added up, with
      a list section counting once however many items it has selected; so
      the header badge is drawn exactly when some section badge is. */
  lemma BadgesAddUpToCount(f: Filters)
    ensures var b := SectionBadges(f);
      && GetActiveFilterCount(f)
         == b.basic + Indicator(b.positions > 0) + Indicator(b.affiliationTypes > 0)
          + b.draftYear + b.height + b.weight + b.other
      && (ShownBadge(GetActiveFilterCount(f)).Some? <==>
          || ShownBadge(b.basic).Some? || ShownBadge(b.positions).Some?
          || ShownBadge(b.affiliationTypes).Some? || ShownBadge(b.draftYear).Some?
          || ShownBadge(b.height).Some? || ShownBadge(b.weight).Some? || ShownBadge(b.other).Some?)
  {
  }

  /** The clear button, disabled while the active-filter count is 0, is
      enabled exactly when a filter is active. */
  function ClearEnabled(f: Filters): (enabled: bool)
    ensures enabled <==> IsFilterActive(f)
  {
    GetActiveFilterCount(f) != 0
  }

  /** Clearing from an enabled clear button leaves nothing to clear. */
  lemma ClearDisablesItself(s: SearchState)
    requires ClearEnabled(s.filters)
    ensures !ClearEnabled(Reduce(s, ClearFilters).filters)
  {
    ClearedStateIsInactive(s);
  }
}

=== FILE: externals.dfy ===
/** The primitives the query engine borrows from the JavaScript runtime and
    does not define itself. They are taken as given, total functions. */
module Externals {
  import opened Wrappers

  datatype Primitives = Primitives(
    /** `new RegExp(pattern, 'i')` succeeds instead of throwing. */
    regexValid: string -> bool,
    /** `new RegExp(pattern, 'i').test(text)` for a valid pattern. */
    regexTest: (string, string) -> bool,
    /** `a.localeCompare(b)`: negative, zero or positive. */
    localeCompare: (string, string) -> int,
    /** `new Date(s).getTime()`. */
    parseDate: string -> int,
    /** `parseFloat(s.replace(/[^\d.]/g, ''))`; `None` stands for NaN. */
    extractNumber: string -> Option<int>)

  /** The sign of a comparison result. */
  function Sign(x: int): int {
    if x < 0 then -1 else if x == 0 then 0 else 1
  }

  /** `localeCompare` behaves as a comparator should: swapping the arguments
      flips the sign, and "not after" is transitive. */
  ghost predicate ConsistentCollation(cmp: (string, string) -> int) {
    && (forall a, b :: Sign(cmp(a, b)) == -Sign(cmp(b, a)))
    && (forall a, b, c :: cmp(a, b) <= 0 && cmp(b, c) <= 0 ==> cmp(a, c) <= 0)
  }
}

=== FILE: filter_engine.dfy ===
/** The filter predicate: whether one record satisfies a filter
    configuration, and the filter pass over the whole record list. Every
    active constraint must hold; inactive ones let every record through. */
module FilterEngine {
  import opened Wrappers
  import opened Text
  import opened Seqs
  import opened Player
  import opened SearchTypes
  import opened Externals

  /** The value of a searchable field of `p`. */
  function FieldValue(p: Player, k: SearchField): (v: Option<string>)
    ensures k == NameField ==> v == Some(p.name)
  {
    match k
    case NameField => Some(p.name)
    case AffiliationNameField => p.affiliationName
    case NotesField => p.notes
    case PositionDetailField => p.positionDetail
  }

  /** Whether a lower-cased field value matches the lower-cased search string
      under `mode`. An invalid pattern falls back to substring search. */
  function ModeMatches(env: Primitives, mode: SearchMode, needle: string, value: string): bool {
    match mode
    case Partial => Contains(value, needle)
    case Exact => value == needle
    case Regex => if env.regexValid(needle) then env.regexTest(needle, value) else Contains(value, needle)
  }

  /** Field `k` of `p` is present, non-empty, and matches. */
  predicate FieldHit(env: Primitives, mode: SearchMode, needle: string, p: Player, k: SearchField) {
    var v := FieldValue(p, k);
    Truthy(v) && ModeMatches(env, mode, needle, ToLower(v.value))
  }

  /** The loop over the searched fields: the record matches as soon as one
      field does. */
  function AnyFieldHits(env: Primitives, mode: SearchMode, needle: string, p: Player, fields: seq<SearchField>): (hit: bool)
    ensures hit <==> exists i :: 0 <= i < |fields| && FieldHit(env, mode, needle, p, fields[i])
    decreases |fields|
  {
    if |fields| == 0 then
      false
    else
      var rest := AnyFieldHits(env, mode, needle, p, fields[1..]);
      assert rest <==> exists i :: 1 <= i < |fields| && FieldHit(env, mode, needle, p, fields[i]) by {
        if rest {
          var i :| 0 <= i < |fields[1..]| && FieldHit(env, mode, needle, p, fields[1..][i]);
          assert fields[1..][i] == fields[i + 1];
        }
        if exists i :: 1 <= i < |fields| && FieldHit(env, mode, needle, p, fields[i]) {
          var i :| 1 <= i < |fields| && FieldHit(env, mode, needle, p, fields[i]);
          assert fields[i] == fields[1..][i - 1];
        }
      }
      FieldHit(env, mode, needle, p, fields[0]) || rest
  }

  /** The text constraint: inactive for an empty search string. */
  predicate TextOk(env: Primitives, f: Filters, p: Player) {
    f.textSearch == "" || AnyFieldHits(env, f.searchMode, ToLower(f.textSearch), p, f.searchFields)
  }

  /** A category constraint: inactive for an empty list; otherwise the value
      must be present, non-empty, and listed. */
  predicate CategoryOk(allowed: seq<string>, v: Option<string>) {
    |allowed| == 0 || (Truthy(v) && v.value in allowed)
  }

  /** `x` satisfies the inclusive bounds that are set. */
  predicate WithinRange(r: Range, x: int) {
    (r.min.None? || r.min.value <= x) && (r.max.None? || x <= r.max.value)
  }

  /** The draft-year constraint: a set range excludes a missing year. */
  predicate DraftYearOk(r: Range, year: Option<int>) {
    !r.IsSet() || (year.Some? && WithinRange(r, year.value))
  }

  /** A height or weight constraint. A missing or empty measurement is
      excluded; one that yields no number (NaN) fails neither bound test and
      is kept. */
  predicate MeasureOk(env: Primitives, r: Range, m: Option<string>) {
    !r.IsSet() || (Truthy(m) && (env.extractNumber(m.value).None? || WithinRange(r, env.extractNumber(m.value).value)))
  }

  /** A tri-state flag: undefined is no constraint, otherwise it must equal
      the record's property. */
  predicate FlagOk(flag: Option<bool>, actual: bool) {
    flag.None? || flag.value == actual
  }

  /** The record has notes that are not blank. */
  predicate HasNotes(p: Player) {
    HasText(p.notes)
  }

  /** The record has a non-blank height or a non-blank weight. */
  predicate HasPhysicalData(p: Player) {
    HasText(p.height) || HasText(p.weight)
  }

  /** The filter predicate: the conjunction of every constraint. */
  predicate Matches(env: Primitives, f: Filters, p: Player) {
    && TextOk(env, f, p)
    && CategoryOk(f.positions, p.position)
    && CategoryOk(f.affiliationTypes, p.affiliationType)
    && DraftYearOk(f.draftYearRange, p.draftYear)
    && MeasureOk(env, f.heightRange, p.height)
    && MeasureOk(env, f.weightRange, p.weight)
    && FlagOk(f.hasNotes, HasNotes(p))
    && FlagOk(f.hasPhysicalData, HasPhysicalData(p))
  }

  /** The filter pass: the records that match, in their original order. */
  function ApplyFilters(env: Primitives, players: seq<Player>, f: Filters): (r: seq<Player>)
    ensures |r| <= |players|
    ensures IsSubsequence(r, players)
    ensures forall i :: 0 <= i < |r| ==> Matches(env, f, r[i])
    ensures forall p :: multiset(r)[p] == if Matches(env, f, p) then multiset(players)[p] else 0
  {
    Filter(players, p => Matches(env, f, p))
  }

  /** A record survives exactly when it is in the input and matches. */
  lemma SurvivorIffMatches(env: Primitives, players: seq<Player>, f: Filters, p: Player)
    ensures p in ApplyFilters(env, players, f) <==> p in players && Matches(env, f, p)
  {
    FilterMembership(players, q => Matches(env, f, q), p);
  }

  /** What each active constraint guarantees about a surviving record. */
  lemma SurvivorSatisfiesConstraints(env: Primitives, players: seq<Player>, f: Filters, p: Player)
    requires p in ApplyFilters(env, players, f)
    ensures f.textSearch != "" ==>
      exists i :: 0 <= i < |f.searchFields| && FieldHit(env, f.searchMode, ToLower(f.textSearch), p, f.searchFields[i])
    ensures |f.positions| > 0 ==> p.position.Some? && p.position.value != "" && p.position.value in f.positions
    ensures |f.affiliationTypes| > 0 ==>
      p.affiliationType.Some? && p.affiliationType.value != "" && p.affiliationType.value in f.affiliationTypes
    ensures f.draftYearRange.IsSet() ==> p.draftYear.Some?
    ensures f.draftYearRange.min.Some? ==> p.draftYear.Some? && p.draftYear.value >= f.draftYearRange.min.value
    ensures f.draftYearRange.max.Some? ==> p.draftYear.Some? && p.draftYear.value <= f.draftYearRange.max.value
    ensures f.heightRange.IsSet() ==> p.height.Some? && p.height.value != ""
    ensures f.weightRange.IsSet() ==> p.weight.Some? && p.weight.value != ""
    ensures f.hasNotes.Some? ==> (p.notes.Some? && Trim(p.notes.value) != "") == f.hasNotes.value
    ensures f.hasPhysicalData.Some? ==>
      ((p.height.Some? && Trim(p.height.value) != "") || (p.weight.Some? && Trim(p.weight.value) != ""))
        == f.hasPhysicalData.value
  {
    SurvivorIffMatches(env, players, f, p);
  }

  /** With no filter category in use, the filter pass returns its input. */
  lemma UnconstrainedKeepsAll(env: Primitives, players: seq<Player>, f: Filters)
    requires GetActiveFilterCount(f) == 0
    ensures ApplyFilters(env, players, f) == players
  {
    assert !IsFilterActive(f);
    assert forall p :: Matches(env, f, p);
    FilterKeepAll(players, p => Matches(env, f, p));
  }

  /** A non-empty search over no fields excludes every record. */
  lemma NoSearchFieldsExcludesAll(env: Primitives, players: seq<Player>, f: Filters)
    requires f.textSearch != "" && |f.searchFields| == 0
    ensures ApplyFilters(env, players, f) == []
  {
  }

  /** In regex mode an invalid pattern gives exactly the partial-mode
      result. */
  lemma InvalidRegexFallsBackToPartial(env: Primitives, players: seq<Player>, f: Filters)
    requires f.searchMode == Regex && !env.regexValid(ToLower(f.textSearch))
    ensures ApplyFilters(env, players, f) == ApplyFilters(env, players, f.(searchMode := Partial))
  {
    var g := f.(searchMode := Partial);
    forall p: Player ensures Matches(env, f, p) == Matches(env, g, p) {
      forall k: SearchField
        ensures FieldHit(env, f.searchMode, ToLower(f.textSearch), p, k)
             == FieldHit(env, g.searchMode, ToLower(g.textSearch), p, k)
      {
      }
    }
    FilterCongruence(players, q => Matches(env, f, q), q => Matches(env, g, q));
  }

  /** Every record found by an exact search is also found by a partial
      search for the same text. */
  lemma ExactWithinPartial(env: Primitives, players: seq<Player>, f: Filters, p: Player)
    requires f.searchMode == Exact && p in ApplyFilters(env, players, f)
    ensures p in ApplyFilters(env, players, f.(searchMode := Partial))
  {
    var g := f.(searchMode := Partial);
    var needle := ToLower(f.textSearch);
    SurvivorIffMatches(env, players, f, p);
    if f.textSearch != "" {
      var i :| 0 <= i < |f.searchFields| && FieldHit(env, Exact, needle, p, f.searchFields[i]);
      ContainsSelf(needle);
      assert FieldHit(env, Partial, needle, p, f.searchFields[i]);
    }
    SurvivorIffMatches(env, players, g, p);
  }

  /** A height or weight that yields no number still passes a set range:
      only a missing or empty value is excluded. */
  lemma UnparsedMeasurePasses(env: Primitives, r: Range, m: Option<string>)
    requires Truthy(m) && env.extractNumber(m.value).None?
    ensures MeasureOk(env, r, m)
  {
  }
}

=== FILE: player.dfy ===
/** The `players` table row: the record every part of the query engine
    works on. `id` and `name` are always present; every other column is
    nullable. */
module Player {
  import opened Wrappers

  datatype Player = Player(
    id: int,
    name: string,
    position: Option<string>,
    positionDetail: Option<string>,
    affiliationType: Option<string>,
    affiliationName: Option<string>,
    draftYear: Option<int>,
    height: Option<string>,
    weight: Option<string>,
    notes: Option<string>,
    createdAt: Option<string>,
    updatedAt: Option<string>,
    userId: string)
}

=== FILE: players_page.dfy ===
/** The plain roster page: loading the records sorted by name, the quick
    search-and-position filter over them, and the list of distinct
    positions offered in its position drop-down. */
module PlayersPage {
  import opened Wrappers
  import opened Text
  import opened Seqs
  import opened Player
  import opened SearchTypes
  import opened Externals
  import opened Sorting

  /** The quick filter: the lower-cased name contains the lower-cased term,
      or the affiliation name is present and its lower-cased form does; and
      either no position is chosen or the record's position equals it. */
  predicate ListingMatch(p: Player, term: string, positionFilter: string) {
    var needle := ToLower(term);
    && (Contains(ToLower(p.name), needle)
        || (p.affiliationName.Some? && Contains(ToLower(p.affiliationName.value), needle)))
    && (positionFilter == "" || p.position == Some(positionFilter))
  }

  /** The listing shown on the page: the loaded records that pass the quick
      filter, each as often as it was loaded, in loading order. */
  function ListingFilter(players: seq<Player>, term: string, positionFilter: string): (r: seq<Player>)
    ensures IsSubsequence(r, players)
    ensures forall i :: 0 <= i < |r| ==> ListingMatch(r[i], term, positionFilter)
    ensures forall p :: p in r <==> p in players && ListingMatch(p, term, positionFilter)
    ensures forall p :: multiset(r)[p] == if ListingMatch(p, term, positionFilter) then multiset(players)[p] else 0
  {
    var keep := (p: Player) => ListingMatch(p, term, positionFilter);
    var r := Filter(players, keep);
    forall p ensures p in r <==> p in players && keep(p) {
      FilterMembership(players, keep, p);
    }
    r
  }

  /** With an empty term and no position chosen, the page lists every
      record. */
  lemma EmptyListingFilterKeepsAll(players: seq<Player>)
    ensures ListingFilter(players, "", "") == players
  {
    forall i | 0 <= i < |players| ensures ListingMatch(players[i], "", "") {
      ContainsEmpty(ToLower(players[i].name));
    }
    FilterKeepAll(players, (p: Player) => ListingMatch(p, "", ""));
  }

  /** Choosing a position only ever narrows the listing. */
  lemma PositionNarrows(players: seq<Player>, term: string, position: string, p: Player)
    requires p in ListingFilter(players, term, position)
    ensures p in ListingFilter(players, term, "")
    ensures p.position == Some(position) || position == ""
  {
  }

  /** Strictly increasing in code-point order, hence free of duplicates. */
  predicate StrictlySorted(s: seq<string>) {
    forall i, j :: 0 <= i < j < |s| ==> CodeLess(s[i], s[j])
  }

  /** Adds `x` to a strictly sorted list unless it is already there. */
  function InsertUnique(x: string, s: seq<string>): (r: seq<string>)
    requires StrictlySorted(s)
    ensures StrictlySorted(r)
    ensures forall y :: y in r <==> y in s || y == x
    decreases |s|
  {
    if |s| == 0 then
      [x]
    else if x == s[0] then
      s
    else if CodeLess(x, s[0]) then
      assert forall j :: 0 < j < |s| ==> CodeLess(x, s[j]) by {
        forall j | 0 < j < |s| ensures CodeLess(x, s[j]) {
          CodeLessTransitive(x, s[0], s[j]);
        }
      }
      [x] + s
    else
      var rest := InsertUnique(x, s[1..]);
      assert forall j :: 0 <= j < |rest| ==> CodeLess(s[0], rest[j]) by {
        CodeLessTotal(x, s[0]);
        forall j | 0 <= j < |rest| ensures CodeLess(s[0], rest[j]) {
          assert rest[j] in rest;
          if rest[j] != x {
            var k :| 0 <= k < |s[1..]| && s[1..][k] == rest[j];
            assert s[1..][k] == s[k + 1];
          }
        }
      }
      [s[0]] + rest
  }

  /** The positions that are present, in record order. */
  function PresentPositions(players: seq<Player>): (r: seq<string>)
    ensures forall x :: x in r <==> exists p :: p in players && p.position == Some(x)
    decreases |players|
  {
    if |players| == 0 then
      []
    else
      var rest := PresentPositions(players[1..]);
      assert forall p :: p in players <==> p == players[0] || p in players[1..] by {
        assert players == [players[0]] + players[1..];
      }
      match players[0].position
      case Some(x) => [x] + rest
      case None => rest
  }

  /** Builds the distinct, sorted list from `xs`. */
  function SortedDistinct(xs: seq<string>): (r: seq<string>)
    ensures StrictlySorted(r)
    ensures forall y :: y in r <==> y in xs
    decreases |xs|
  {
    if |xs| == 0 then
      []
    else
      assert xs == [xs[0]] + xs[1..];
      InsertUnique(xs[0], SortedDistinct(xs[1..]))
  }

  /** The drop-down's options: each non-null position once, in
      code-point order. */
  function UniquePositions(players: seq<Player>): (r: seq<string>)
    ensures StrictlySorted(r)
    ensures forall x :: x in r <==> exists p :: p in players && p.position == Some(x)
  {
    SortedDistinct(PresentPositions(players))
  }

  /** A strictly sorted list has no repeated element. */
  lemma StrictlySortedDistinct(s: seq<string>, i: int, j: int)
    requires StrictlySorted(s) && 0 <= i < j < |s|
    ensures s[i] != s[j]
  {
    CodeLessIrreflexive(s[i]);
  }

  /** Two strictly sorted lists with the same elements are equal: the
      options do not depend on how the distinct positions were gathered
      before sorting. */
  lemma {:induction false} StrictlySortedUnique(a: seq<string>, b: seq<string>)
    requires StrictlySorted(a) && StrictlySorted(b)
    requires forall x :: x in a <==> x in b
    ensures a == b
    decreases |a|
  {
    // neither list is empty without the other
    assert |a| > 0 ==> a[0] in b;
    assert |b| > 0 ==> b[0] in a;
    if |a| > 0 && |b| > 0 {
      // the first elements are both the least element
      if a[0] != b[0] {
        var i :| 0 <= i < |b| && b[i] == a[0];
        var j :| 0 <= j < |a| && a[j] == b[0];
        assert i > 0 && j > 0;
        assert CodeLess(b[0], a[0]) && CodeLess(a[0], b[0]);
        CodeLessTransitive(a[0], b[0], a[0]);
        CodeLessIrreflexive(a[0]);
      }
      forall x ensures x in a[1..] <==> x in b[1..] {
        if x in a[1..] {
          var k :| 0 <= k < |a[1..]| && a[1..][k] == x;
          assert a[k + 1] == x;
          StrictlySortedDistinct(a, 0, k + 1);
          assert x in b;
          var m :| 0 <= m < |b| && b[m] == x;
          assert m != 0;
          assert b[1..][m - 1] == x;
        }
        if x in b[1..] {
          var k :| 0 <= k < |b[1..]| && b[1..][k] == x;
          assert b[k + 1] == x;
          StrictlySortedDistinct(b, 0, k + 1);
          assert x in a;
          var m :| 0 <= m < |a| && a[m] == x;
          assert m != 0;
          assert a[1..][m - 1] == x;
        }
      }
      StrictlySortedUnique(a[1..], b[1..]);
      assert a == [a[0]] + a[1..] && b == [b[0]] + b[1..];
    }
  }

  /** Whatever order the set of positions comes in, sorting it gives the
      drop-down's options. */
  lemma UniquePositionsCanonical(players: seq<Player>, options: seq<string>)
    requires StrictlySorted(options)
    requires forall x :: x in options <==> exists p :: p in players && p.position == Some(x)
    ensures options == UniquePositions(players)
  {
    StrictlySortedUnique(options, UniquePositions(players));
  }

  /** What the database query returns: rows (possibly `null`), or an
      error. */
  datatype FetchOutcome = Fetched(data: Option<seq<Player>>) | FetchFailed(message: string)

  /** The loaded roster: a failed query becomes the error message; `null`
      data becomes the empty list; rows are sorted by name. */
  function LoadPlayers(env: Primitives, outcome: FetchOutcome): (r: Result<seq<Player>, string>)
    ensures outcome.FetchFailed? <==> r.Failure?
    ensures outcome.FetchFailed? ==> r.error == outcome.message
    ensures outcome.Fetched? && outcome.data.None? ==> r == Success([])
    ensures outcome.Fetched? && outcome.data.Some? ==>
      r.Success? && multiset(r.value) == multiset(outcome.data.value)
    ensures r.Success? && ConsistentCollation(env.localeCompare) ==>
      forall i, j :: 0 <= i < j < |r.value| ==> env.localeCompare(r.value[i].name, r.value[j].name) <= 0
  {
    match outcome
    case FetchFailed(message) => Failure(message)
    case Fetched(data) => Success(ApplySorting(env, data.GetOr([]), SortOptions(ByName, Asc)))
  }
}

=== FILE: search_pipeline.dfy ===
/** The query pipeline of the search hook: filter the full record list,
    report the filtered count back to the state, sort, cut out the current
    page, and derive the statistics shown above the listing. */
module SearchPipeline {
  import opened Wrappers
  import opened Seqs
  import opened Player
  import opened SearchTypes
  import opened SearchReducer
  import opened Externals
  import opened FilterEngine
  import opened Sorting

  /** How `Array.prototype.slice` turns an index argument into a position:
      a negative index counts from the end, and the result is clamped to
      the array. */
  function SliceIndex(i: int, n: nat): (k: nat)
    ensures k <= n
    ensures 0 <= i ==> k == Min(i, n)
  {
    if i < 0 then Max(n + i, 0) else Min(i, n)
  }

  /** `s.slice(start, end)`. */
  function JsSlice<T>(s: seq<T>, start: int, end: int): (r: seq<T>)
    ensures 0 <= start <= end ==> r == s[Min(start, |s|)..Min(end, |s|)]
    ensures forall x :: x in r ==> x in s
  {
    var from := SliceIndex(start, |s|);
    var to := SliceIndex(end, |s|);
    if from < to then s[from..to] else []
  }

  /** Where page `page` starts and ends. */
  lemma PageArithmetic(page: int, limit: PageSize)
    requires page >= 1
    ensures 0 <= (page - 1) * limit
    ensures (page - 1) * limit + limit == page * limit
  {
  }

  /** A window of at most `size` records from position `start`. */
  lemma SliceWindow(players: seq<Player>, start: nat, size: nat)
    ensures var r := JsSlice(players, start, start + size);
      && |r| <= size
      && |r| == Max(0, Min(start + size, |players|) - start)
      && forall i :: 0 <= i < |r| ==> r[i] == players[start + i]
  {
    var r := JsSlice(players, start, start + size);
    var lo, hi := Min(start, |players|), Min(start + size, |players|);
    assert r == players[lo..hi];
    assert |r| == hi - lo;
    if |r| > 0 {
      assert lo == start;
    }
  }

  /** The records of page `page` (1-based) of `limit` records each. */
  function ApplyPagination(players: seq<Player>, page: int, limit: PageSize): (r: seq<Player>)
    ensures forall x :: x in r ==> x in players
    ensures page >= 1 ==> |r| <= limit
    ensures page >= 1 ==> var start := (page - 1) * limit;
      && 0 <= start
      && |r| == Max(0, Min(start + limit, |players|) - start)
      && forall i :: 0 <= i < |r| ==> r[i] == players[start + i]
  {
    var start := (page - 1) * limit;
    var r := JsSlice(players, start, start + limit);
    if page >= 1 then
      PageArithmetic(page, limit);
      SliceWindow(players, start, limit);
      r
    else
      r
  }

  /** Record `j` of page `page` is record `(page - 1) * limit + j`. */
  lemma PageElement(players: seq<Player>, page: int, limit: PageSize, j: int)
    requires page >= 1 && 0 <= j < |ApplyPagination(players, page, limit)|
    ensures (page - 1) * limit + j < |players|
    ensures ApplyPagination(players, page, limit)[j] == players[(page - 1) * limit + j]
  {
  }

  /** Pages 1 to `k`, one after the other. */
  function PagesUpTo(players: seq<Player>, limit: PageSize, k: nat): seq<Player> {
    if k == 0 then [] else PagesUpTo(players, limit, k - 1) + ApplyPagination(players, k, limit)
  }

  /** The records before page `page`, followed by that page, are the
      records up to its end. */
  lemma PrefixThenPage(players: seq<Player>, page: int, limit: PageSize)
    requires page >= 1
    ensures var before := (page - 1) * limit;
      0 <= before &&
      players[..Min(before, |players|)] + ApplyPagination(players, page, limit)
        == players[..Min(before + limit, |players|)]
  {
    PageArithmetic(page, limit);
    var before := (page - 1) * limit;
    var prev := players[..Min(before, |players|)];
    var r := ApplyPagination(players, page, limit);
    var whole := players[..Min(before + limit, |players|)];
    assert |prev + r| == |whole|;
    forall i | 0 <= i < |whole| ensures (prev + r)[i] == whole[i] {
      if i >= |prev| {
        assert |prev| == before;
        PageElement(players, page, limit, i - before);
      }
    }
    assert prev + r == whole;
  }

  /** The first `k` pages, in order, are exactly the first `k * limit`
      records (or all of them). */
  lemma {:induction false} PagesUpToIsPrefix(players: seq<Player>, limit: PageSize, k: nat)
    ensures PagesUpTo(players, limit, k) == players[..Min(k * limit, |players|)]
  {
    if k > 0 {
      PagesUpToIsPrefix(players, limit, k - 1);
      PageArithmetic(k, limit);
      PrefixThenPage(players, k, limit);
    }
  }

  /** Reading every page in order reconstructs the sorted list. */
  lemma AllPagesReassemble(players: seq<Player>, limit: PageSize)
    ensures PagesUpTo(players, limit, CalculateTotalPages(|players|, limit)) == players
  {
    var k := CalculateTotalPages(|players|, limit);
    PagesUpToIsPrefix(players, limit, k);
    assert players[..|players|] == players;
  }

  /** Every page cut out of an ordered list is itself ordered, whatever the
      page number, since `slice` always returns a contiguous run. */
  lemma PageKeepsOrder(env: Primitives, sorted: seq<Player>, sort: SortOptions, page: int, limit: PageSize)
    requires forall i, j :: 0 <= i < j < |sorted| ==> ComesFirst(env, sort, sorted[i], sorted[j])
    ensures var r := ApplyPagination(sorted, page, limit);
      forall i, j :: 0 <= i < j < |r| ==> ComesFirst(env, sort, r[i], r[j])
  {
    var start := (page - 1) * limit;
    var from, to := SliceIndex(start, |sorted|), SliceIndex(start + limit, |sorted|);
    var r := ApplyPagination(sorted, page, limit);
    assert r == JsSlice(sorted, start, start + limit);
    if from < to {
      assert r == sorted[from..to];
      forall i, j | 0 <= i < j < |r| ensures ComesFirst(env, sort, r[i], r[j]) {
        assert r[i] == sorted[from + i] && r[j] == sorted[from + j];
      }
    }
  }

  /** The output of the pipeline. */
  datatype Processed = Processed(players: seq<Player>, totalCount: nat, allFilteredPlayers: seq<Player>)

  /** `r` is page `page` of `sorted`: the run of at most `limit` records
      that starts at record `(page - 1) * limit`. */
  predicate IsPageOf(r: seq<Player>, sorted: seq<Player>, page: int, limit: PageSize) {
    && page >= 1
    && var start := (page - 1) * limit;
      && |r| == Max(0, Min(start + limit, |sorted|) - start)
      && forall i :: 0 <= i < |r| ==> r[i] == sorted[start + i]
  }

  /** Sort the filtered records, then cut out the current page. The page is
      ordered by the chosen sort and, for a page number of at least 1, is
      the run of the sorted list that starts at `(page - 1) * limit`. */
  function SortedPage(env: Primitives, filtered: seq<Player>, sort: SortOptions, page: int, limit: PageSize): (r: seq<Player>)
    ensures forall p :: p in r ==> p in filtered
    ensures Comparable(env, sort.field) ==>
      forall i, j :: 0 <= i < j < |r| ==> ComesFirst(env, sort, r[i], r[j])
    ensures page >= 1 ==> |r| <= limit
    ensures page >= 1 ==> IsPageOf(r, ApplySorting(env, filtered, sort), page, limit)
  {
    var sorted := ApplySorting(env, filtered, sort);
    assert Comparable(env, sort.field) ==>
      forall i, j :: 0 <= i < j < |sorted| ==> ComesFirst(env, sort, sorted[i], sorted[j]);
    assert Comparable(env, sort.field) ==>
      var r := ApplyPagination(sorted, page, limit);
      forall i, j :: 0 <= i < j < |r| ==> ComesFirst(env, sort, r[i], r[j]) by {
      if Comparable(env, sort.field) {
        PageKeepsOrder(env, sorted, sort, page, limit);
      }
    }
    ApplyPagination(sorted, page, limit)
  }

  /** Filter, sort, then cut out the current page. The filtered list keeps
      exactly the matching records, in input order and with their
      multiplicities; the page is ordered by the chosen sort and, for a
      page number of at least 1, is the run of the sorted filtered list
      that starts at `(page - 1) * limit`. */
  function ProcessPlayers(env: Primitives, all: seq<Player>, s: SearchState): (out: Processed)
    ensures out.totalCount == |out.allFilteredPlayers| <= |all|
    ensures IsSubsequence(out.allFilteredPlayers, all)
    ensures forall p :: multiset(out.allFilteredPlayers)[p] == if Matches(env, s.filters, p) then multiset(all)[p] else 0
    ensures forall p :: p in out.players ==> p in all && Matches(env, s.filters, p)
    ensures Comparable(env, s.sort.field) ==>
      forall i, j :: 0 <= i < j < |out.players| ==> ComesFirst(env, s.sort, out.players[i], out.players[j])
    ensures s.pagination.page >= 1 ==> |out.players| <= s.pagination.limit
    ensures s.pagination.page >= 1 ==>
      IsPageOf(out.players, ApplySorting(env, out.allFilteredPlayers, s.sort), s.pagination.page, s.pagination.limit)
  {
    var filtered := ApplyFilters(env, all, s.filters);
    var page := SortedPage(env, filtered, s.sort, s.pagination.page, s.pagination.limit);
    assert forall p :: p in filtered ==> p in all && Matches(env, s.filters, p) by {
      forall p | p in filtered ensures p in all && Matches(env, s.filters, p) {
        SurvivorIffMatches(env, all, s.filters, p);
      }
    }
    Processed(page, |filtered|, filtered)
  }

  /** The total-count update the pipeline dispatches: only when the
      filtered count differs from the stored one. */
  function CountFeedback(s: SearchState, filteredCount: nat): (a: Option<Action>)
    ensures a.Some? <==> filteredCount != s.pagination.totalCount
    ensures a.Some? ==> a.value == SetTotalCount(filteredCount)
  {
    if filteredCount != s.pagination.totalCount then Some(SetTotalCount(filteredCount)) else None
  }

  /** The state after the pipeline's feedback has been applied. */
  function Settle(env: Primitives, all: seq<Player>, s: SearchState): (t: SearchState)
    ensures t.filters == s.filters && t.sort == s.sort && t.isAdvancedMode == s.isAdvancedMode
    ensures t.pagination.page == s.pagination.page && t.pagination.limit == s.pagination.limit
    ensures t.pagination.totalCount == |ApplyFilters(env, all, s.filters)|
    ensures PagesConsistent(s.pagination) ==> PagesConsistent(t.pagination)
  {
    var n := |ApplyFilters(env, all, s.filters)|;
    match CountFeedback(s, n)
    case Some(a) => Reduce(s, a)
    case None => s
  }

  /** One round of feedback suffices: the settled state holds the filtered
      count, so the pipeline dispatches nothing more, and the pages it
      shows are unchanged. */
  lemma SettleIsFixpoint(env: Primitives, all: seq<Player>, s: SearchState)
    ensures var t := Settle(env, all, s);
      && t.pagination.totalCount == |ApplyFilters(env, all, s.filters)|
      && CountFeedback(t, |ApplyFilters(env, all, t.filters)|).None?
      && Settle(env, all, t) == t
      && ProcessPlayers(env, all, t) == ProcessPlayers(env, all, s)
  {
  }

  /** In a state whose stored counts agree, settling leaves the page count
      equal to the number of pages of the filtered list. */
  lemma SettledPageCount(env: Primitives, all: seq<Player>, s: SearchState)
    requires PagesConsistent(s.pagination)
    ensures var t := Settle(env, all, s);
      t.pagination.totalPages == CalculateTotalPages(|ApplyFilters(env, all, s.filters)|, s.pagination.limit)
  {
  }

  /** The statistics shown with the listing. */
  datatype Stats = Stats(
    isFilterActive: bool,
    activeFilterCount: nat,
    totalPlayers: nat,
    filteredCount: nat,
    currentPageStart: int,
    currentPageEnd: int)

  function ComputeStats(s: SearchState, totalPlayers: nat, filteredCount: nat): (st: Stats)
    ensures st.activeFilterCount == GetActiveFilterCount(s.filters)
    ensures st.isFilterActive == IsFilterActive(s.filters)
    ensures st.totalPlayers == totalPlayers && st.filteredCount == filteredCount
    ensures st.isFilterActive <==> st.activeFilterCount > 0
    ensures st.activeFilterCount <= 8
    ensures st.currentPageEnd <= filteredCount
    ensures st.currentPageEnd <= s.pagination.page * s.pagination.limit
    ensures st.currentPageEnd == filteredCount || st.currentPageEnd == s.pagination.page * s.pagination.limit
    ensures st.currentPageStart + s.pagination.limit - 1 == s.pagination.page * s.pagination.limit
  {
    Stats(
      IsFilterActive(s.filters),
      GetActiveFilterCount(s.filters),
      totalPlayers,
      filteredCount,
      (s.pagination.page - 1) * s.pagination.limit + 1,
      Min(s.pagination.page * s.pagination.limit, filteredCount))
  }

  /** On any ordered list, the "start - end" range of the statistics is
      exactly the range of record numbers on the page cut out of it. */
  lemma PageMatchesStats(sorted: seq<Player>, s: SearchState, totalPlayers: nat)
    requires s.pagination.page >= 1
    ensures var r := ApplyPagination(sorted, s.pagination.page, s.pagination.limit);
      var st := ComputeStats(s, totalPlayers, |sorted|);
      && |r| == Max(0, st.currentPageEnd - st.currentPageStart + 1)
      && (|r| > 0 ==> r[0] == sorted[st.currentPageStart - 1] && r[|r| - 1] == sorted[st.currentPageEnd - 1])
  {
    var page, limit := s.pagination.page, s.pagination.limit;
    PageArithmetic(page, limit);
    var r := ApplyPagination(sorted, page, limit);
    var st := ComputeStats(s, totalPlayers, |sorted|);
    var first := (page - 1) * limit;
    assert st.currentPageStart == first + 1;
    assert st.currentPageEnd == Min(first + limit, |sorted|);
    assert |r| == Max(0, Min(first + limit, |sorted|) - first);
    if |r| > 0 {
      assert r[0] == sorted[first + 0];
      assert r[|r| - 1] == sorted[first + (|r| - 1)];
    }
  }
}

=== FILE: search_reducer.dfy ===
/** The search state machine: a total reducer over a closed set of
    actions. Every change to a filter or to the sort sends the view back to
    the first page. */
module SearchReducer {
  import opened Wrappers
  import opened SearchTypes

  datatype Action =
    | SetTextSearch(text: string)
    | SetSearchMode(mode: SearchMode)
    | SetSearchFields(fields: seq<SearchField>)
    | SetPositions(positions: seq<string>)
    | SetAffiliationTypes(affiliationTypes: seq<string>)
    | SetDraftYearRange(draftYearRange: Range)
    | SetHeightRange(heightRange: Range)
    | SetWeightRange(weightRange: Range)
    | SetHasNotes(hasNotes: bool)
    | SetHasPhysicalData(hasPhysicalData: bool)
    | SetSort(sort: SortOptions)
    | SetPage(page: int)
    | SetLimit(limit: PageSize)
    | ToggleAdvancedMode
    | ClearFilters
    | SetTotalCount(count: int)
  {
    /** The ten actions that replace one filter field. */
    predicate IsFilterAction() {
      !(SetSort? || SetPage? || SetLimit? || ToggleAdvancedMode? || ClearFilters? || SetTotalCount?)
    }
  }

  /** The ten fields of a filter configuration. */
  datatype FilterSlot =
    | TextSlot | ModeSlot | FieldsSlot | PositionsSlot | AffiliationTypesSlot
    | DraftYearSlot | HeightSlot | WeightSlot | NotesSlot | PhysicalDataSlot

  /** `f` and `g` have the same value in field `k`. */
  predicate AgreeOn(f: Filters, g: Filters, k: FilterSlot) {
    match k
    case TextSlot => f.textSearch == g.textSearch
    case ModeSlot => f.searchMode == g.searchMode
    case FieldsSlot => f.searchFields == g.searchFields
    case PositionsSlot => f.positions == g.positions
    case AffiliationTypesSlot => f.affiliationTypes == g.affiliationTypes
    case DraftYearSlot => f.draftYearRange == g.draftYearRange
    case HeightSlot => f.heightRange == g.heightRange
    case WeightSlot => f.weightRange == g.weightRange
    case NotesSlot => f.hasNotes == g.hasNotes
    case PhysicalDataSlot => f.hasPhysicalData == g.hasPhysicalData
  }

  /** `f` and `g` agree on every field except possibly `k`. */
  predicate AgreeExcept(f: Filters, g: Filters, k: FilterSlot) {
    forall j: FilterSlot :: j != k ==> AgreeOn(f, g, j)
  }

  /** The field a filter action writes. */
  function SlotOf(a: Action): FilterSlot
    requires a.IsFilterAction()
  {
    match a
    case SetTextSearch(_) => TextSlot
    case SetSearchMode(_) => ModeSlot
    case SetSearchFields(_) => FieldsSlot
    case SetPositions(_) => PositionsSlot
    case SetAffiliationTypes(_) => AffiliationTypesSlot
    case SetDraftYearRange(_) => DraftYearSlot
    case SetHeightRange(_) => HeightSlot
    case SetWeightRange(_) => WeightSlot
    case SetHasNotes(_) => NotesSlot
    case SetHasPhysicalData(_) => PhysicalDataSlot
  }

  /** The field written by filter action `a` holds the action's payload;
      the two flags hold it as a defined value. */
  predicate CarriesPayload(f: Filters, a: Action)
    requires a.IsFilterAction()
  {
    match a
    case SetTextSearch(t) => f.textSearch == t
    case SetSearchMode(m) => f.searchMode == m
    case SetSearchFields(fs) => f.searchFields == fs
    case SetPositions(ps) => f.positions == ps
    case SetAffiliationTypes(ts) => f.affiliationTypes == ts
    case SetDraftYearRange(r) => f.draftYearRange == r
    case SetHeightRange(r) => f.heightRange == r
    case SetWeightRange(r) => f.weightRange == r
    case SetHasNotes(b) => f.hasNotes == Some(b)
    case SetHasPhysicalData(b) => f.hasPhysicalData == Some(b)
  }

  /** The filter configuration after filter action `a`. */
  function WriteFilter(f: Filters, a: Action): (g: Filters)
    requires a.IsFilterAction()
    ensures CarriesPayload(g, a)
    ensures AgreeExcept(g, f, SlotOf(a))
  {
    match a
    case SetTextSearch(t) => f.(textSearch := t)
    case SetSearchMode(m) => f.(searchMode := m)
    case SetSearchFields(fs) => f.(searchFields := fs)
    case SetPositions(ps) => f.(positions := ps)
    case SetAffiliationTypes(ts) => f.(affiliationTypes := ts)
    case SetDraftYearRange(rg) => f.(draftYearRange := rg)
    case SetHeightRange(rg) => f.(heightRange := rg)
    case SetWeightRange(rg) => f.(weightRange := rg)
    case SetHasNotes(b) => f.(hasNotes := Some(b))
    case SetHasPhysicalData(b) => f.(hasPhysicalData := Some(b))
  }

  function Reduce(s: SearchState, a: Action): (r: SearchState)
    // a filter action writes its own field, resets the page, and leaves
    // everything else alone
    ensures a.IsFilterAction() ==>
      && CarriesPayload(r.filters, a)
      && AgreeExcept(r.filters, s.filters, SlotOf(a))
      && r.sort == s.sort
      && r.pagination == s.pagination.(page := 1)
      && r.isAdvancedMode == s.isAdvancedMode
    ensures a.SetSort? ==>
      && r.sort == a.sort
      && r.filters == s.filters
      && r.pagination == s.pagination.(page := 1)
      && r.isAdvancedMode == s.isAdvancedMode
    // the page is stored as given, without clamping
    ensures a.SetPage? ==>
      && r.pagination.page == a.page
      && r.pagination.(page := s.pagination.page) == s.pagination
      && r.filters == s.filters && r.sort == s.sort
      && r.isAdvancedMode == s.isAdvancedMode
    ensures a.SetLimit? ==>
      && r.pagination.limit == a.limit
      && r.pagination.page == 1
      && r.pagination.totalCount == s.pagination.totalCount
      && (r.pagination.totalPages - 1) * a.limit < s.pagination.totalCount <= r.pagination.totalPages * a.limit
      && r.filters == s.filters && r.sort == s.sort
      && r.isAdvancedMode == s.isAdvancedMode
    ensures a.SetTotalCount? ==>
      && r.pagination.totalCount == a.count
      && (r.pagination.totalPages - 1) * s.pagination.limit < a.count <= r.pagination.totalPages * s.pagination.limit
      && r.pagination.page == s.pagination.page
      && r.pagination.limit == s.pagination.limit
      && r.filters == s.filters && r.sort == s.sort
      && r.isAdvancedMode == s.isAdvancedMode
    ensures a.ToggleAdvancedMode? ==>
      && r.isAdvancedMode != s.isAdvancedMode
      && r.filters == s.filters && r.sort == s.sort && r.pagination == s.pagination
    ensures a.ClearFilters? ==>
      && r.filters == DefaultFilters
      && r.sort == DefaultSort
      && r.pagination == DefaultPagination
      && r.isAdvancedMode == s.isAdvancedMode
    // no action breaks the agreement between the stored counts
    ensures PagesConsistent(s.pagination) ==> PagesConsistent(r.pagination)
  {
    var first := s.pagination.(page := 1);
    match a
    case SetSort(o) => s.(sort := o, pagination := first)
    case SetPage(p) => s.(pagination := s.pagination.(page := p))
    case SetLimit(l) =>
      s.(pagination := s.pagination.(limit := l, page := 1,
                                      totalPages := CalculateTotalPages(s.pagination.totalCount, l)))
    case SetTotalCount(c) =>
      s.(pagination := s.pagination.(totalCount := c,
                                      totalPages := CalculateTotalPages(c, s.pagination.limit)))
    case ToggleAdvancedMode => s.(isAdvancedMode := !s.isAdvancedMode)
    case ClearFilters => DefaultState.(isAdvancedMode := s.isAdvancedMode)
    case _ => s.(filters := WriteFilter(s.filters, a), pagination := first)
  }

  /** Toggling advanced mode twice restores the state. */
  lemma ToggleTwice(s: SearchState)
    ensures Reduce(Reduce(s, ToggleAdvancedMode), ToggleAdvancedMode) == s
  {
  }

  /** Every action other than the toggle is idempotent: dispatching it a
      second time changes nothing. */
  lemma SettingIsIdempotent(s: SearchState, a: Action)
    requires !a.ToggleAdvancedMode?
    ensures Reduce(Reduce(s, a), a) == Reduce(s, a)
  {
  }

  /** Re-reporting the record count the state already holds is a no-op, so
      the count feedback from the pipeline cannot loop. */
  lemma SameTotalCountIsNoOp(s: SearchState)
    requires PagesConsistent(s.pagination)
    ensures Reduce(s, SetTotalCount(s.pagination.totalCount)) == s
  {
  }

  /** After clearing, no filter is active and the page count is that of an
      empty result. */
  lemma ClearedStateIsInactive(s: SearchState)
    ensures !IsFilterActive(Reduce(s, ClearFilters).filters)
    ensures GetActiveFilterCount(Reduce(s, ClearFilters).filters) == 0
    ensures PagesConsistent(Reduce(s, ClearFilters).pagination)
  {
  }
}

=== FILE: search_types.dfy ===
/** The search configuration: filters, sort options, pagination, the
    aggregate search state, their defaults, and the bookkeeping functions
    that count pages and active filters. */
module SearchTypes {
  import opened Wrappers

  /** How the text search compares a field with the search string. */
  datatype SearchMode = Partial | Exact | Regex

  /** The record fields the text search may look at. */
  datatype SearchField = NameField | AffiliationNameField | NotesField | PositionDetailField

  /** An inclusive numeric range; either bound may be absent. */
  datatype Range = Range(min: Option<int>, max: Option<int>) {
    /** A range constrains anything only when one of its bounds is set. */
    predicate IsSet() {
      min.Some? || max.Some?
    }
  }

  const Unbounded: Range := Range(None, None)

  datatype Filters = Filters(
    textSearch: string,
    searchMode: SearchMode,
    searchFields: seq<SearchField>,
    positions: seq<string>,
    affiliationTypes: seq<string>,
    draftYearRange: Range,
    heightRange: Range,
    weightRange: Range,
    hasNotes: Option<bool>,
    hasPhysicalData: Option<bool>)

  datatype SortField = ByName | ByDraftYear | ByCreatedAt | ByUpdatedAt | ByPosition

  datatype Direction = Asc | Desc

  datatype SortOptions = SortOptions(field: SortField, direction: Direction)

  /** A page size. The listing only offers 10, 20, 50 and 100; a size of
      zero or less would divide by zero when counting pages. */
  type PageSize = l: int | l > 0 witness 20

  datatype Pagination = Pagination(page: int, limit: PageSize, totalCount: int, totalPages: int)

  datatype SearchState = SearchState(
    filters: Filters,
    sort: SortOptions,
    pagination: Pagination,
    isAdvancedMode: bool)

  const DefaultFilters: Filters := Filters(
    "", Partial, [NameField, AffiliationNameField], [], [],
    Unbounded, Unbounded, Unbounded, None, None)

  const DefaultSort: SortOptions := SortOptions(ByName, Asc)

  const DefaultPagination: Pagination := Pagination(1, 20, 0, 0)

  const DefaultState: SearchState := SearchState(DefaultFilters, DefaultSort, DefaultPagination, false)

  /** `Math.ceil(totalCount / limit)`: the least number of pages of `limit`
      records that hold `totalCount` records. */
  function CalculateTotalPages(totalCount: int, limit: PageSize): (pages: int)
    ensures (pages - 1) * limit < totalCount <= pages * limit
    ensures totalCount == 0 ==> pages == 0
    ensures totalCount > 0 ==> pages >= 1
  {
    if totalCount % limit == 0 then totalCount / limit else totalCount / limit + 1
  }

  /** The stored page count agrees with the stored record count and size. */
  predicate PagesConsistent(p: Pagination) {
    p.totalPages == CalculateTotalPages(p.totalCount, p.limit)
  }

  /** No filter category constrains anything: every field other than the
      search mode and the searched-field list has its default value. */
  predicate Unconstrained(f: Filters) {
    f == DefaultFilters.(searchMode := f.searchMode, searchFields := f.searchFields)
  }

  /** Whether any filter category is in use. */
  function IsFilterActive(f: Filters): (active: bool)
    ensures active <==> GetActiveFilterCount(f) > 0
  {
    || f.textSearch != ""
    || |f.positions| > 0
    || |f.affiliationTypes| > 0
    || f.draftYearRange.min.Some?
    || f.draftYearRange.max.Some?
    || f.heightRange.min.Some?
    || f.heightRange.max.Some?
    || f.weightRange.min.Some?
    || f.weightRange.max.Some?
    || f.hasNotes.Some?
    || f.hasPhysicalData.Some?
  }

  /** 1 when `b` holds, else 0. */
  function Indicator(b: bool): nat {
    if b then 1 else 0
  }

  /** The number of filter categories in use; a range counts once however
      many of its bounds are set. */
  function GetActiveFilterCount(f: Filters): (count: nat)
    ensures count <= 8
    ensures count == 0 <==> Unconstrained(f)
  {
    Indicator(f.textSearch != "")
    + Indicator(|f.positions| > 0)
    + Indicator(|f.affiliationTypes| > 0)
    + Indicator(f.draftYearRange.IsSet())
    + Indicator(f.heightRange.IsSet())
    + Indicator(f.weightRange.IsSet())
    + Indicator(f.hasNotes.Some?)
    + Indicator(f.hasPhysicalData.Some?)
  }

  /** Choosing a search mode or the fields to search is not a filter: it
      changes neither the count nor whether a filter is active. */
  lemma ModeAndFieldsNotCounted(f: Filters, mode: SearchMode, fields: seq<SearchField>)
    ensures GetActiveFilterCount(f.(searchMode := mode, searchFields := fields)) == GetActiveFilterCount(f)
    ensures IsFilterActive(f.(searchMode := mode, searchFields := fields)) == IsFilterActive(f)
  {
  }

  /** A range contributes exactly one to the count when set, whether one or
      both of its bounds are given. */
  lemma RangeCountsOnce(f: Filters, r: Range)
    ensures GetActiveFilterCount(f.(draftYearRange := r))
      == GetActiveFilterCount(f.(draftYearRange := Unbounded)) + Indicator(r.IsSet())
    ensures GetActiveFilterCount(f.(heightRange := r))
      == GetActiveFilterCount(f.(heightRange := Unbounded)) + Indicator(r.IsSet())
    ensures GetActiveFilterCount(f.(weightRange := r))
      == GetActiveFilterCount(f.(weightRange := Unbounded)) + Indicator(r.IsSet())
  {
  }

  /** The defaults: no active filter, first page of 20, and a page count
      that agrees with the empty record count. */
  lemma DefaultsAreInactive()
    ensures GetActiveFilterCount(DefaultFilters) == 0 && !IsFilterActive(DefaultFilters)
    ensures DefaultPagination.page == 1 && DefaultPagination.limit == 20
    ensures PagesConsistent(DefaultPagination)
  {
  }
}

=== FILE: seqs.dfy ===
/** Sequence vocabulary shared by the query engine: order-preserving
    subsequences, `Array.prototype.filter`, and the stable comparison sort
    behind `Array.prototype.sort`. */
module Seqs {

  /** `Math.min` and `Math.max`, which clamp slice bounds and the page
      window. */
  function Min(a: int, b: int): int {
    if a <= b then a else b
  }

  function Max(a: int, b: int): int {
    if a <= b then b else a
  }

  /** `a` is obtained from `b` by deleting elements, keeping the order of
      the rest. */
  predicate IsSubsequence<T(==)>(a: seq<T>, b: seq<T>)
    decreases |b|
  {
    if |b| == 0 then |a| == 0
    else (|a| > 0 && a[0] == b[0] && IsSubsequence(a[1..], b[1..])) || IsSubsequence(a, b[1..])
  }

  /** Every sequence is a subsequence of itself. */
  lemma {:induction false} SubsequenceReflexive<T>(a: seq<T>)
    ensures IsSubsequence(a, a)
    decreases |a|
  {
    if |a| > 0 {
      SubsequenceReflexive(a[1..]);
    }
  }

  /** `s.filter(keep)`. */
  function Filter<T(==,!new)>(s: seq<T>, keep: T -> bool): (r: seq<T>)
    ensures |r| <= |s|
    ensures IsSubsequence(r, s)
    ensures forall i :: 0 <= i < |r| ==> keep(r[i])
    ensures forall x :: multiset(r)[x] == if keep(x) then multiset(s)[x] else 0
    decreases |s|
  {
    if |s| == 0 then
      []
    else
      var rest := Filter(s[1..], keep);
      assert s == [s[0]] + s[1..];
      if keep(s[0]) then
        assert ([s[0]] + rest)[1..] == rest;
        [s[0]] + rest
      else
        rest
  }

  /** A filter that keeps every element returns its input unchanged. */
  lemma {:induction false} FilterKeepAll<T(!new)>(s: seq<T>, keep: T -> bool)
    requires forall i :: 0 <= i < |s| ==> keep(s[i])
    ensures Filter(s, keep) == s
    decreases |s|
  {
    if |s| > 0 {
      FilterKeepAll(s[1..], keep);
      assert s == [s[0]] + s[1..];
    }
  }

  /** Two filters that agree on every element of `s` select the same
      subsequence. */
  lemma {:induction false} FilterCongruence<T(!new)>(s: seq<T>, keep1: T -> bool, keep2: T -> bool)
    requires forall i :: 0 <= i < |s| ==> keep1(s[i]) == keep2(s[i])
    ensures Filter(s, keep1) == Filter(s, keep2)
    decreases |s|
  {
    if |s| > 0 {
      FilterCongruence(s[1..], keep1, keep2);
    }
  }

  lemma ConsAppend<T>(x: T, a: seq<T>, b: seq<T>)
    ensures [x] + (a + b) == ([x] + a) + b
  {
  }

  /** Filtering a sequence with one more element at the end filters the
      sequence and then decides on that element alone. */
  lemma {:induction false} FilterAppend<T(!new)>(s: seq<T>, x: T, keep: T -> bool)
    ensures Filter(s + [x], keep) == Filter(s, keep) + (if keep(x) then [x] else [])
    decreases |s|
  {
    if |s| == 0 {
      assert s + [x] == [x];
      assert [x][1..] == [];
    } else {
      var t := s + [x];
      var tail := if keep(x) then [x] else [];
      assert t[1..] == s[1..] + [x];
      FilterAppend(s[1..], x, keep);
      assert Filter(t[1..], keep) == Filter(s[1..], keep) + tail;
      if keep(s[0]) {
        assert Filter(t, keep) == [s[0]] + Filter(t[1..], keep);
        assert Filter(s, keep) == [s[0]] + Filter(s[1..], keep);
        ConsAppend(s[0], Filter(s[1..], keep), tail);
      } else {
        assert Filter(t, keep) == Filter(t[1..], keep);
        assert Filter(s, keep) == Filter(s[1..], keep);
      }
    }
  }

  /** An element survives a filter exactly when it was in the input and
      the filter keeps it. */
  lemma FilterMembership<T(!new)>(s: seq<T>, keep: T -> bool, x: T)
    ensures x in Filter(s, keep) <==> x in s && keep(x)
  {
    var r := Filter(s, keep);
    assert x in r <==> multiset(r)[x] > 0;
    assert x in s <==> multiset(s)[x] > 0;
  }

  /** `le` is total and transitive: the comparator contract of a sort. */
  ghost predicate TotalPreorder<T(!new)>(le: (T, T) -> bool) {
    && (forall a, b :: le(a, b) || le(b, a))
    && (forall a, b, c :: le(a, b) && le(b, c) ==> le(a, c))
  }

  /** Every earlier element is `le` every later one. */
  predicate Sorted<T>(s: seq<T>, le: (T, T) -> bool) {
    forall i, j :: 0 <= i < j < |s| ==> le(s[i], s[j])
  }

  /** Inserts `x` before the first element it may precede; among elements
      that compare equal to it, `x` goes first. */
  function Insert<T>(x: T, s: seq<T>, le: (T, T) -> bool): (r: seq<T>)
    ensures |r| == |s| + 1
    ensures multiset(r) == multiset(s) + multiset{x}
    decreases |s|
  {
    if |s| == 0 then
      [x]
    else if le(x, s[0]) then
      [x] + s
    else
      assert s == [s[0]] + s[1..];
      [s[0]] + Insert(x, s[1..], le)
  }

  lemma {:induction false} InsertSorted<T(!new)>(x: T, s: seq<T>, le: (T, T) -> bool)
    requires TotalPreorder(le) && Sorted(s, le)
    ensures Sorted(Insert(x, s, le), le)
    decreases |s|
  {
    if |s| > 0 && !le(x, s[0]) {
      var rest := Insert(x, s[1..], le);
      InsertSorted(x, s[1..], le);
      assert le(s[0], x);
      forall j | 0 <= j < |rest| ensures le(s[0], rest[j]) {
        assert rest[j] in multiset(rest);
        assert rest[j] == x || rest[j] in multiset(s[1..]);
        if rest[j] != x {
          var k :| 0 <= k < |s[1..]| && s[1..][k] == rest[j];
          assert s[1..][k] == s[k + 1];
        }
      }
    }
  }

  /** A stable insertion sort: the first element is inserted, as `Insert`
      does, in front of every later element that compares equal to it. */
  function SortBy<T>(s: seq<T>, le: (T, T) -> bool): (r: seq<T>)
    ensures |r| == |s|
    ensures multiset(r) == multiset(s)
    decreases |s|
  {
    if |s| == 0 then
      []
    else
      assert s == [s[0]] + s[1..];
      Insert(s[0], SortBy(s[1..], le), le)
  }

  /** With a total preorder, the sort's output is ordered. */
  lemma {:induction false} SortBySorted<T(!new)>(s: seq<T>, le: (T, T) -> bool)
    requires TotalPreorder(le)
    ensures Sorted(SortBy(s, le), le)
    decreases |s|
  {
    if |s| > 0 {
      SortBySorted(s[1..], le);
      InsertSorted(s[0], SortBy(s[1..], le), le);
    }
  }
}

=== FILE: sort_and_pagination.dfy ===
/** The sort-and-pagination bar: the rule that picks the sort direction
    when a sort field is clicked, and the row of page buttons, modelled as a
    sequence of button tokens. */
module SortAndPagination {
  import opened Wrappers
  import opened Seqs
  import opened SearchTypes
  import opened SearchReducer

  /** Clicking sort field `field`: a second click on the ascending current
      field turns it descending; anything else sorts ascending. */
  function NextSort(current: SortOptions, field: SortField): (next: SortOptions)
    ensures next.field == field
    ensures next.direction == Desc <==> current.field == field && current.direction == Asc
  {
    var direction := if current.field == field && current.direction == Asc then Desc else Asc;
    SortOptions(field, direction)
  }

  /** Clicking the current ascending field twice returns to ascending; a
      click on any other field always starts ascending. */
  lemma SortClickCycle(field: SortField, other: SortField, dir: Direction)
    requires other != field
    ensures NextSort(NextSort(SortOptions(field, Asc), field), field) == SortOptions(field, Asc)
    ensures NextSort(SortOptions(other, dir), field) == SortOptions(field, Asc)
  {
  }

  /** The arrow next to a sort button. */
  datatype SortIcon = Unsorted | Ascending | Descending

  function IconFor(sort: SortOptions, field: SortField): (icon: SortIcon)
    ensures icon == Unsorted <==> sort.field != field
  {
    if sort.field != field then Unsorted
    else if sort.direction == Asc then Ascending
    else Descending
  }

  /** The arrow predicts the click: under an up arrow the next click sorts
      descending, under any other arrow it sorts ascending, and afterwards
      the clicked field shows the arrow of its new direction. */
  lemma IconPredictsClick(sort: SortOptions, field: SortField)
    ensures var next := NextSort(sort, field);
      && (next.direction == Desc <==> IconFor(sort, field) == Ascending)
      && IconFor(next, field) == (if next.direction == Asc then Ascending else Descending)
  {
  }

  /** At most seven numbered page buttons are shown. */
  const MaxVisiblePages: int := 7

  /** The first and last page number of the window of numbered buttons:
      centred on the current page where possible, slid back from the end
      otherwise. */
  function PageWindow(current: int, total: int): (w: (int, int))
    ensures 1 <= w.0 && w.1 <= total
    ensures w.1 - w.0 + 1 <= MaxVisiblePages
    ensures total >= MaxVisiblePages ==> w.1 - w.0 + 1 == MaxVisiblePages
    ensures total < MaxVisiblePages ==> w == (1, total)
    ensures 1 <= current <= total ==> w.0 <= current <= w.1
    ensures w.0 > 1 || w.1 < total ==> w.0 <= w.1
  {
    var start := Max(1, current - MaxVisiblePages / 2);
    var end := Min(total, start + MaxVisiblePages - 1);
    if end - start + 1 < MaxVisiblePages then (Max(1, end - MaxVisiblePages + 1), end) else (start, end)
  }

  /** One element of the bar. Only numbered buttons inside the window are
      ever highlighted as current. */
  datatype Button = Prev(disabled: bool) | PageButton(number: int, current: bool) | Ellipsis | Next(disabled: bool)

  /** The numbered buttons `from` to `to`. */
  function WindowButtons(from: int, to: int, current: int): (r: seq<Button>)
    ensures |r| == Max(0, to - from + 1)
    ensures forall i :: 0 <= i < |r| ==> r[i] == PageButton(from + i, from + i == current)
  {
    if from > to then [] else seq(to - from + 1, i => PageButton(from + i, from + i == current))
  }

  /** The buttons before the window: page 1 and an ellipsis, when the
      window does not reach them. */
  function Lead(start: int): (r: seq<Button>)
    ensures |r| <= 2
  {
    if start > 1 then [PageButton(1, false)] + (if start > 2 then [Ellipsis] else []) else []
  }

  /** The buttons after the window: an ellipsis and the last page, when the
      window does not reach them. */
  function Trail(end: int, total: int): (r: seq<Button>)
    ensures |r| <= 2
  {
    if end < total then (if end < total - 1 then [Ellipsis] else []) + [PageButton(total, false)] else []
  }

  /** The tokens between "prev" and "next". */
  function PageTokens(current: int, total: int): seq<Button> {
    var (start, end) := PageWindow(current, total);
    Assemble(start, end, current, total)
  }

  /** The tokens for window `start`..`end` of `total` pages. */
  function Assemble(start: int, end: int, current: int, total: int): seq<Button> {
    Lead(start) + WindowButtons(start, end, current) + Trail(end, total)
  }

  /** What `PageWindow` guarantees about a window, as the token lemmas
      need it. */
  predicate WindowFits(start: int, end: int, total: int) {
    1 <= start && end <= total && (start > 1 || end < total ==> start <= end)
  }

  /** Page numbers rise strictly from token to token and stay in range. */
  predicate NumbersIncrease(t: seq<Button>, total: int) {
    && (forall i :: 0 <= i < |t| && t[i].PageButton? ==> 1 <= t[i].number <= total)
    && (forall i, j :: 0 <= i < j < |t| && t[i].PageButton? && t[j].PageButton? ==> t[i].number < t[j].number)
  }

  /** No page is skipped silently: neighbouring numbers are consecutive, and
      an ellipsis sits between two numbers exactly where pages are left
      out. */
  predicate NoSilentGaps(t: seq<Button>) {
    && (forall i :: 0 <= i < |t| ==> t[i].PageButton? || t[i].Ellipsis?)
    && (forall i :: 0 <= i < |t| - 1 && t[i].PageButton? && t[i + 1].PageButton? ==>
          t[i + 1].number == t[i].number + 1)
    && (forall i :: 0 <= i < |t| && t[i].Ellipsis? ==>
          && 0 < i < |t| - 1
          && t[i - 1].PageButton? && t[i + 1].PageButton?
          && t[i + 1].number >= t[i - 1].number + 2)
  }

  /** The page-1 button and the leading ellipsis appear exactly when the
      window leaves pages out at the front, and likewise the last-page
      button and the trailing ellipsis at the back. */
  lemma EdgeButtons(current: int, total: int)
    ensures var t := PageTokens(current, total);
      var (start, end) := PageWindow(current, total);
      && (start > 1 ==> |t| > 0 && t[0] == PageButton(1, false))
      && (start > 2 <==> |t| > 1 && t[1] == Ellipsis)
      && (end < total ==> |t| > 0 && t[|t| - 1] == PageButton(total, false))
      && (end < total - 1 <==> |t| > 1 && t[|t| - 2] == Ellipsis)
  {
  }

  /** The page numbers shown rise strictly and lie within 1 to `total`. */
  lemma {:induction false} PageNumbersIncrease(current: int, total: int)
    ensures NumbersIncrease(PageTokens(current, total), total)
  {
    var (start, end) := PageWindow(current, total);
    AssembledNumbersIncrease(start, end, current, total);
  }

  lemma {:induction false} AssembledNumbersIncrease(start: int, end: int, current: int, total: int)
    requires WindowFits(start, end, total)
    ensures NumbersIncrease(Assemble(start, end, current, total), total)
  {
    var t, lead, win, trail := Assemble(start, end, current, total), Lead(start), WindowButtons(start, end, current), Trail(end, total);
    forall i | 0 <= i < |t| && t[i].PageButton? ensures 1 <= t[i].number <= total {
      if |lead| <= i < |lead| + |win| {
        assert t[i] == win[i - |lead|];
      } else if i >= |lead| + |win| {
        assert t[i] == trail[i - |lead| - |win|];
      } else {
        assert t[i] == lead[i];
      }
    }
    forall i, j | 0 <= i < j < |t| && t[i].PageButton? && t[j].PageButton? ensures t[i].number < t[j].number {
      if i < |lead| {
        assert t[i] == lead[i];
        if j >= |lead| + |win| {
          assert t[j] == trail[j - |lead| - |win|];
        } else if j >= |lead| {
          assert t[j] == win[j - |lead|];
        }
      } else if i < |lead| + |win| {
        assert t[i] == win[i - |lead|];
        if j < |lead| + |win| {
          assert t[j] == win[j - |lead|];
        } else {
          assert t[j] == trail[j - |lead| - |win|];
        }
      }
    }
  }

  /** Neighbouring page numbers are consecutive and every ellipsis stands
      for at least one hidden page between its neighbours. */
  lemma {:induction false} PageGapsMarked(current: int, total: int)
    ensures NoSilentGaps(PageTokens(current, total))
  {
    var (start, end) := PageWindow(current, total);
    AssembledGapsMarked(start, end, current, total);
  }

  lemma {:induction false} AssembledGapsMarked(start: int, end: int, current: int, total: int)
    requires WindowFits(start, end, total)
    ensures NoSilentGaps(Assemble(start, end, current, total))
  {
    AssembledNeighbours(start, end, current, total);
    AssembledEllipses(start, end, current, total);
  }

  /** Next to each other, two numbered buttons show consecutive pages. */
  lemma {:induction false} AssembledNeighbours(start: int, end: int, current: int, total: int)
    requires WindowFits(start, end, total)
    ensures var t := Assemble(start, end, current, total);
      && (forall i :: 0 <= i < |t| ==> t[i].PageButton? || t[i].Ellipsis?)
      && (forall i :: 0 <= i < |t| - 1 && t[i].PageButton? && t[i + 1].PageButton? ==>
            t[i + 1].number == t[i].number + 1)
  {
    var t, lead, win, trail := Assemble(start, end, current, total), Lead(start), WindowButtons(start, end, current), Trail(end, total);
    forall i | 0 <= i < |t| ensures t[i].PageButton? || t[i].Ellipsis? {
      if |lead| <= i < |lead| + |win| {
        assert t[i] == win[i - |lead|];
      } else if i >= |lead| + |win| {
        assert t[i] == trail[i - |lead| - |win|];
      } else {
        assert t[i] == lead[i];
      }
    }
    forall i | 0 <= i < |t| - 1 && t[i].PageButton? && t[i + 1].PageButton?
      ensures t[i + 1].number == t[i].number + 1
    {
      if |lead| <= i && i + 1 < |lead| + |win| {
        assert t[i] == win[i - |lead|] && t[i + 1] == win[i + 1 - |lead|];
      } else if |lead| <= i < |lead| + |win| {
        assert t[i] == win[i - |lead|];
        assert t[i + 1] == trail[0];
      } else if i + 1 == |lead| {
        assert t[i] == lead[i];
        assert t[i + 1] == win[0];
      }
    }
  }

  /** Every ellipsis stands between two numbered buttons that are at least
      two pages apart. */
  lemma {:induction false} AssembledEllipses(start: int, end: int, current: int, total: int)
    requires WindowFits(start, end, total)
    ensures var t := Assemble(start, end, current, total);
      forall i :: 0 <= i < |t| && t[i].Ellipsis? ==>
        && 0 < i < |t| - 1
        && t[i - 1].PageButton? && t[i + 1].PageButton?
        && t[i + 1].number >= t[i - 1].number + 2
  {
    var t, lead, win, trail := Assemble(start, end, current, total), Lead(start), WindowButtons(start, end, current), Trail(end, total);
    forall i | 0 <= i < |t| && t[i].Ellipsis?
      ensures 0 < i < |t| - 1 && t[i - 1].PageButton? && t[i + 1].PageButton? && t[i + 1].number >= t[i - 1].number + 2
    {
      if i < |lead| {
        assert t[i] == lead[i];
        assert i == 1 && start > 2;
        assert t[0] == lead[0];
        assert t[i + 1] == win[0];
      } else if i >= |lead| + |win| {
        assert t[i] == trail[i - |lead| - |win|];
        assert i == |lead| + |win| && end < total - 1;
        assert t[i - 1] == win[|win| - 1];
        assert t[i + 1] == trail[1];
      }
    }
  }

  /** Page 1 comes first and page `total` last; the current page, when in
      range, is shown highlighted; at most eleven tokens appear. */
  lemma {:induction false} PageTokensEnds(current: int, total: int)
    ensures var t := PageTokens(current, total);
      && (total >= 1 ==> |t| > 0 && t[0].PageButton? && t[0].number == 1)
      && (total >= 1 ==> |t| > 0 && t[|t| - 1].PageButton? && t[|t| - 1].number == total)
      && (total < 1 ==> t == [])
      && (1 <= current <= total ==> PageButton(current, true) in t)
      && |t| <= MaxVisiblePages + 4
  {
    var (start, end) := PageWindow(current, total);
    AssembledEnds(start, end, current, total);
  }

  lemma {:induction false} AssembledEnds(start: int, end: int, current: int, total: int)
    requires WindowFits(start, end, total) && end - start + 1 <= MaxVisiblePages
    ensures var t := Assemble(start, end, current, total);
      && (total >= 1 ==> |t| > 0 && t[0].PageButton? && t[0].number == 1)
      && (total >= 1 ==> |t| > 0 && t[|t| - 1].PageButton? && t[|t| - 1].number == total)
      && (total < 1 ==> t == [])
      && (start <= current <= end ==> PageButton(current, true) in t)
      && |t| <= MaxVisiblePages + 4
  {
    var t, lead, win, trail := Assemble(start, end, current, total), Lead(start), WindowButtons(start, end, current), Trail(end, total);
    if start <= current <= end {
      assert t[|lead| + (current - start)] == win[current - start];
    }
    if total >= 1 {
      if start == 1 {
        assert t[0] == win[0];
      } else {
        assert t[0] == lead[0];
      }
      if end == total {
        assert t[|lead| + |win| - 1] == win[|win| - 1];
      } else {
        assert t[|t| - 1] == trail[|trail| - 1];
      }
    }
  }

  /** The whole row: "prev", the page tokens, "next". "prev" is disabled
      on the first page and "next" on the last. */
  function PaginationButtons(current: int, total: int): (b: seq<Button>)
    ensures |b| >= 2
    ensures b[0] == Prev(current <= 1)
    ensures b[|b| - 1] == Next(current >= total)
    ensures b[1..|b| - 1] == PageTokens(current, total)
  {
    [Prev(current <= 1)] + PageTokens(current, total) + [Next(current >= total)]
  }

  /** The bar is rendered only when there is more than one page. */
  function PaginationBar(p: Pagination): (bar: Option<seq<Button>>)
    ensures bar.Some? <==> p.totalPages > 1
    ensures bar.Some? ==> bar.value == PaginationButtons(p.page, p.totalPages)
  {
    if p.totalPages > 1 then Some(PaginationButtons(p.page, p.totalPages)) else None
  }

  /** The action a click on button `b` dispatches: "prev" and "next" move
      one page from the current one, a page button goes to its page, and
      disabled buttons and ellipses dispatch nothing. */
  function Click(b: Button, current: int): (a: Option<Action>)
    ensures b.Ellipsis? ==> a.None?
    ensures (b.Prev? || b.Next?) && b.disabled ==> a.None?
    ensures b.Prev? && !b.disabled ==> a == Some(SetPage(current - 1))
    ensures b.Next? && !b.disabled ==> a == Some(SetPage(current + 1))
    ensures b.PageButton? ==> a == Some(SetPage(b.number))
  {
    match b
    case Prev(disabled) => if disabled then None else Some(SetPage(current - 1))
    case Next(disabled) => if disabled then None else Some(SetPage(current + 1))
    case PageButton(n, _) => Some(SetPage(n))
    case Ellipsis => None
  }

  /** From a page in range, every click on the bar asks for a page in
      range, so the unclamped page action never leaves the valid pages. */
  lemma ClicksStayInRange(current: int, total: int, i: int)
    requires 1 <= current <= total
    requires 0 <= i < |PaginationButtons(current, total)|
    ensures var a := Click(PaginationButtons(current, total)[i], current);
      a.Some? ==> a.value.SetPage? && 1 <= a.value.page <= total
  {
    var b := PaginationButtons(current, total);
    PageNumbersIncrease(current, total);
    PageGapsMarked(current, total);
    if 0 < i < |b| - 1 {
      assert b[i] == PageTokens(current, total)[i - 1];
    }
  }
}

=== FILE: sorting.dfy ===
/** The sort comparator and the sort of the filtered records: one key at a
    time, missing values replaced by a default, and a descending direction
    that negates the comparison. */
module Sorting {
  import opened Wrappers
  import opened Seqs
  import opened Player
  import opened SearchTypes
  import opened Externals

  /** A nullable date-time as a timestamp; a missing one is the epoch. */
  function Timestamp(env: Primitives, s: Option<string>): (t: int)
    ensures s.None? ==> t == 0
  {
    match s
    case None => 0
    case Some(text) => env.parseDate(text)
  }

  /** The sort key used for draft years: a missing year counts as 0. */
  function YearKey(p: Player): int {
    p.draftYear.GetOr(0)
  }

  /** The sort key used for positions: a missing position counts as "". */
  function PositionKey(p: Player): string {
    p.position.GetOr("")
  }

  /** The source's comparison of `a` with `b` on one field, before the
      direction is applied: negative when `a` goes first. */
  function Compare(env: Primitives, field: SortField, a: Player, b: Player): int {
    match field
    case ByName => env.localeCompare(a.name, b.name)
    case ByDraftYear => YearKey(a) - YearKey(b)
    case ByCreatedAt => Timestamp(env, a.createdAt) - Timestamp(env, b.createdAt)
    case ByUpdatedAt => Timestamp(env, a.updatedAt) - Timestamp(env, b.updatedAt)
    case ByPosition => env.localeCompare(PositionKey(a), PositionKey(b))
  }

  /** The fields whose comparison goes through `localeCompare`; the others
      subtract numbers. */
  predicate UsesCollation(field: SortField) {
    field == ByName || field == ByPosition
  }

  /** The comparison of `field` behaves as a comparator: always for a
      numeric key, and for a text key when `localeCompare` does. */
  ghost predicate Comparable(env: Primitives, field: SortField) {
    !UsesCollation(field) || ConsistentCollation(env.localeCompare)
  }

  /** The comparison with the direction applied. */
  function Directed(dir: Direction, c: int): (d: int)
    ensures Externals.Sign(d) == if dir == Desc then -Externals.Sign(c) else Externals.Sign(c)
  {
    if dir == Desc then -c else c
  }

  /** `a` may be placed before `b` under `sort`. */
  predicate ComesFirst(env: Primitives, sort: SortOptions, a: Player, b: Player) {
    Directed(sort.direction, Compare(env, sort.field, a, b)) <= 0
  }

  /** The comparator of `sort` as a relation. */
  function Order(env: Primitives, sort: SortOptions): (Player, Player) -> bool {
    (a, b) => ComesFirst(env, sort, a, b)
  }

  /** For every field, swapping the records flips the sign of the
      comparison, provided `localeCompare` does. */
  lemma CompareAntisymmetric(env: Primitives, field: SortField, a: Player, b: Player)
    requires Comparable(env, field)
    ensures Externals.Sign(Compare(env, field, a, b)) == -Externals.Sign(Compare(env, field, b, a))
  {
    match field
    case ByName =>
      assert Externals.Sign(env.localeCompare(a.name, b.name)) == -Externals.Sign(env.localeCompare(b.name, a.name));
    case ByPosition =>
      assert Externals.Sign(env.localeCompare(PositionKey(a), PositionKey(b)))
          == -Externals.Sign(env.localeCompare(PositionKey(b), PositionKey(a)));
    case _ =>
  }

  /** For every field, "not after" is transitive, provided `localeCompare`
      behaves as a comparator. */
  lemma CompareTransitive(env: Primitives, field: SortField, a: Player, b: Player, c: Player)
    requires Comparable(env, field)
    requires Compare(env, field, a, b) <= 0 && Compare(env, field, b, c) <= 0
    ensures Compare(env, field, a, c) <= 0
  {
    match field
    case ByName =>
      assert env.localeCompare(a.name, b.name) <= 0 && env.localeCompare(b.name, c.name) <= 0;
    case ByPosition =>
      assert env.localeCompare(PositionKey(a), PositionKey(b)) <= 0;
      assert env.localeCompare(PositionKey(b), PositionKey(c)) <= 0;
    case _ =>
  }

  /** The comparator of every sort option whose field is comparable, in
      either direction, is a total preorder. */
  lemma OrderIsTotalPreorder(env: Primitives, sort: SortOptions)
    requires Comparable(env, sort.field)
    ensures TotalPreorder(Order(env, sort))
  {
    var le := Order(env, sort);
    forall a, b ensures le(a, b) || le(b, a) {
      CompareAntisymmetric(env, sort.field, a, b);
    }
    forall a, b, c | le(a, b) && le(b, c) ensures le(a, c) {
      if sort.direction == Asc {
        CompareTransitive(env, sort.field, a, b, c);
      } else {
        CompareAntisymmetric(env, sort.field, a, b);
        CompareAntisymmetric(env, sort.field, b, c);
        CompareAntisymmetric(env, sort.field, a, c);
        CompareTransitive(env, sort.field, c, b, a);
      }
    }
  }

  /** `[...players].sort(comparator)`: a stable sort by the selected key.
      The result is a permutation of the input, ordered by a numeric key
      always and by a text key whenever `localeCompare` is a consistent
      comparator. */
  function ApplySorting(env: Primitives, players: seq<Player>, sort: SortOptions): (r: seq<Player>)
    ensures |r| == |players|
    ensures multiset(r) == multiset(players)
    ensures forall p :: p in r <==> p in players
    ensures Comparable(env, sort.field) ==>
      forall i, j :: 0 <= i < j < |r| ==> ComesFirst(env, sort, r[i], r[j])
  {
    var r := SortBy(players, Order(env, sort));
    assert forall p :: p in r <==> p in players by {
      forall p ensures p in r <==> p in players {
        assert p in r <==> p in multiset(r);
        assert p in players <==> p in multiset(players);
      }
    }
    assert Comparable(env, sort.field) ==> Sorted(r, Order(env, sort)) by {
      if Comparable(env, sort.field) {
        OrderIsTotalPreorder(env, sort);
        SortBySorted(players, Order(env, sort));
      }
    }
    r
  }

  /** Draft-year sorting orders by year with a missing year as 0: rising
      when ascending, falling when descending. */
  lemma DraftYearOrder(env: Primitives, players: seq<Player>, dir: Direction, i: int, j: int)
    requires 0 <= i < j < |players|
    ensures var r := ApplySorting(env, players, SortOptions(ByDraftYear, dir));
      if dir == Asc then YearKey(r[i]) <= YearKey(r[j]) else YearKey(r[i]) >= YearKey(r[j])
  {
  }

  /** Date sorting orders by timestamp with a missing date as the epoch. */
  lemma CreatedAtOrder(env: Primitives, players: seq<Player>, dir: Direction, i: int, j: int)
    requires 0 <= i < j < |players|
    ensures var r := ApplySorting(env, players, SortOptions(ByCreatedAt, dir));
      if dir == Asc then Timestamp(env, r[i].createdAt) <= Timestamp(env, r[j].createdAt)
      else Timestamp(env, r[i].createdAt) >= Timestamp(env, r[j].createdAt)
  {
  }

  /** A descending sort is ordered by the reversed ascending comparator:
      every later record may go before every earlier one in the ascending
      sense. */
  lemma DescendingReversesAscending(env: Primitives, players: seq<Player>, field: SortField, i: int, j: int)
    requires Comparable(env, field)
    requires 0 <= i < j < |players|
    ensures var r := ApplySorting(env, players, SortOptions(field, Desc));
      ComesFirst(env, SortOptions(field, Asc), r[j], r[i])
  {
    var r := ApplySorting(env, players, SortOptions(field, Desc));
    CompareAntisymmetric(env, field, r[i], r[j]);
  }
}

=== FILE: text.dfy ===
/** The JavaScript string primitives the search code relies on:
    `toLowerCase`, `includes`, `trim`, truthiness of an optional string, and
    the default code-unit ordering used by `Array.prototype.sort()`. */
module Text {
  import opened Wrappers

  /** Lower-cases one character. Only the ASCII letters are mapped; every
      other character is left unchanged. */
  function LowerChar(c: char): (d: char)
    ensures 'A' <= c <= 'Z' ==> 'a' <= d <= 'z' && d as int - c as int == 32
    ensures !('A' <= c <= 'Z') ==> d == c
  {
    if 'A' <= c <= 'Z' then (c as int + 32) as char else c
  }

  /** `s.toLowerCase()`, character by character. */
  function ToLower(s: string): (r: string)
    ensures |r| == |s|
    ensures forall i :: 0 <= i < |s| ==> r[i] == LowerChar(s[i])
  {
    if |s| == 0 then [] else [LowerChar(s[0])] + ToLower(s[1..])
  }

  /** Lower-casing a string twice is the same as lower-casing it once. */
  lemma ToLowerIdempotent(s: string)
    ensures ToLower(ToLower(s)) == ToLower(s)
  {
  }

  /** `t` occurs in `s` starting at index `i`. */
  predicate OccursAt(s: string, t: string, i: int) {
    0 <= i <= |s| - |t| && s[i..i + |t|] == t
  }

  /** `s.includes(t)`: `t` occurs in `s` as a contiguous substring. */
  function Contains(s: string, t: string): (b: bool)
    ensures b <==> exists i :: OccursAt(s, t, i)
    decreases |s|
  {
    if t <= s then
      assert OccursAt(s, t, 0);
      true
    else if |s| == 0 then
      false
    else
      var rest := Contains(s[1..], t);
      assert rest ==> exists i :: OccursAt(s, t, i) by {
        if rest {
          var i :| OccursAt(s[1..], t, i);
          assert s[i + 1..i + 1 + |t|] == s[1..][i..i + |t|];
          assert OccursAt(s, t, i + 1);
        }
      }
      assert !OccursAt(s, t, 0);
      assert (exists i :: OccursAt(s, t, i)) ==> rest by {
        if exists i :: OccursAt(s, t, i) {
          var i :| OccursAt(s, t, i);
          assert i > 0;
          assert s[1..][i - 1..i - 1 + |t|] == s[i..i + |t|];
          assert OccursAt(s[1..], t, i - 1);
        }
      }
      rest
  }

  /** Every string contains the empty string. */
  lemma ContainsEmpty(s: string)
    ensures Contains(s, "")
  {
    assert OccursAt(s, "", 0);
  }

  /** Every string contains itself. */
  lemma ContainsSelf(s: string)
    ensures Contains(s, s)
  {
    assert OccursAt(s, s, 0);
  }

  /** The characters `String.prototype.trim` removes: the ECMAScript
      WhiteSpace and LineTerminator code points. */
  predicate IsJsWhitespace(c: char) {
    c == '\t' || c == '\n' || c == '\U{000B}' || c == '\U{000C}' || c == '\r' ||
    c == ' ' || c == '\U{00A0}' || c == '\U{1680}' ||
    ('\U{2000}' <= c <= '\U{200A}') ||
    c == '\U{2028}' || c == '\U{2029}' || c == '\U{202F}' || c == '\U{205F}' ||
    c == '\U{3000}' || c == '\U{FEFF}'
  }

  /** Every character of `s` is whitespace (vacuously true of ""). */
  predicate IsBlank(s: string) {
    forall i :: 0 <= i < |s| ==> IsJsWhitespace(s[i])
  }

  /** The number of whitespace characters at the start of `s`. */
  function LeadingSpace(s: string): (n: nat)
    ensures n <= |s| && IsBlank(s[..n])
    ensures n < |s| ==> !IsJsWhitespace(s[n])
  {
    if |s| > 0 && IsJsWhitespace(s[0]) then
      var m := LeadingSpace(s[1..]);
      assert forall i :: 1 <= i < 1 + m ==> s[i] == s[1..][..m][i - 1];
      1 + m
    else
      0
  }

  /** The number of whitespace characters at the end of `s`. */
  function TrailingSpace(s: string): (n: nat)
    ensures n <= |s| && IsBlank(s[|s| - n..])
    ensures n < |s| ==> !IsJsWhitespace(s[|s| - n - 1])
  {
    if |s| > 0 && IsJsWhitespace(s[|s| - 1]) then
      var m := TrailingSpace(s[..|s| - 1]);
      assert forall i :: |s| - 1 - m <= i < |s| - 1 ==> s[i] == s[..|s| - 1][|s| - 1 - m..][i - (|s| - 1 - m)];
      1 + m
    else
      0
  }

  /** `s.trim()`: `s` without its leading and trailing whitespace. */
  function Trim(s: string): (t: string)
    ensures |t| <= |s|
    ensures |t| > 0 ==> !IsJsWhitespace(t[0]) && !IsJsWhitespace(t[|t| - 1])
  {
    var a := s[LeadingSpace(s)..];
    a[..|a| - TrailingSpace(a)]
  }

  /** A string trims to "" exactly when it consists only of whitespace; this
      is the meaning of every `x.trim() !== ''` / `!x.trim()` test. */
  lemma TrimEmptyIffBlank(s: string)
    ensures Trim(s) == "" <==> IsBlank(s)
  {
    var n := LeadingSpace(s);
    var a := s[n..];
    var m := TrailingSpace(a);
    assert Trim(s) == a[..|a| - m];
    if Trim(s) == "" {
      assert m == |a|;
      assert a[|a| - m..] == a;
      assert n == |s|;
      assert s[..n] == s;
    }
    if IsBlank(s) {
      assert a == "";
    }
  }

  /** JavaScript truthiness of a nullable string: present and non-empty. */
  predicate Truthy(o: Option<string>) {
    o.Some? && o.value != ""
  }

  /** The present, non-blank test `x !== null && x.trim() !== ''`. */
  predicate HasText(o: Option<string>) {
    o.Some? && Trim(o.value) != ""
  }

  /** Strict lexicographic order by character code, the order
      `Array.prototype.sort()` uses for strings when given no comparator. */
  predicate CodeLess(a: string, b: string)
    decreases |a|
  {
    if |a| == 0 then |b| > 0
    else if |b| == 0 then false
    else if a[0] == b[0] then CodeLess(a[1..], b[1..])
    else a[0] < b[0]
  }

  lemma {:induction false} CodeLessIrreflexive(a: string)
    ensures !CodeLess(a, a)
    decreases |a|
  {
    if |a| > 0 {
      CodeLessIrreflexive(a[1..]);
    }
  }

  lemma {:induction false} CodeLessTransitive(a: string, b: string, c: string)
    requires CodeLess(a, b) && CodeLess(b, c)
    ensures CodeLess(a, c)
    decreases |a|
  {
    if |a| > 0 && |b| > 0 && |c| > 0 && a[0] == b[0] && b[0] == c[0] {
      CodeLessTransitive(a[1..], b[1..], c[1..]);
    }
  }

  lemma {:induction false} CodeLessTotal(a: string, b: string)
    ensures a == b || CodeLess(a, b) || CodeLess(b, a)
    decreases |a|
  {
    if |a| > 0 && |b| > 0 && a[0] == b[0] {
      CodeLessTotal(a[1..], b[1..]);
      if a[1..] == b[1..] {
        assert a == [a[0]] + a[1..] && b == [b[0]] + b[1..];
      }
    }
  }
}

=== FILE: wrappers.dfy ===
/** Optional values and success/failure results, standing in for the
    TypeScript `T | null` / `T | undefined` unions and for early-return
    error paths. */
module Wrappers {

  /** A value that may be absent (`null` or `undefined` in the source). */
  datatype Option<+T> = None | Some(value: T) {

    /** The value, or `default` when absent (the source's `x ?? default`). */
    function GetOr(default: T): T {
      match this
      case Some(v) => v
      case None => default
    }
  }

  /** The outcome of an operation that can fail with an error of type `E`. */
  datatype Result<+R, +E> = Success(value: R) | Failure(error: E)
}
